=== FILE: README.md ===
# pyphotodb import and link, modelled in Dafny

pyphotodb keeps a photo archive under a root directory. It has a `bulk/`
directory of archived copies, an SQLite catalog (`database.s3db`) with a
Photos table and an Albums table, and a `sort/` tree of symbolic links.
This project models the two commands that do the work:

- **import** walks an import directory. It keeps the files whose
  lower-cased extension is one of `.jpg .jpeg .gif .png .bmp .tiff`. Each
  file is identified by its (MD5 digest, size) pair. A new file gets the
  next identity (`max(Id) + 1`, or 1 for an empty table). Its capture time
  is the earlier of its modification time and a parseable EXIF
  `Image DateTime`. It is copied into `bulk/` under the canonical name
  `YYYY-MM-DD-<identity as at least six uppercase hex digits><extension>`,
  recorded in Photos, and linked into the album named after the import
  directory. A duplicate is only linked into that album. A link is added
  only when it is absent.
- **link** projects the catalog into `sort/by_album/<album>/<photo>` or
  `sort/by_date/<YYYY-MM-DD>/<photo>`. Each link holds the text
  `os.path.join(rootPath, 'bulk', <photo>)`, which leads to `bulk/<photo>`
  only when the root path is absolute (see Findings).
  A directory is made only when nothing exists at its path, and the same
  holds for a link. Any criterion other than `date` or `album` exits with
  status 1 before anything is made.

Modules, in dependency order:

- `Wrappers` holds `Option` and `Result`.
- `Digits` covers positional rendering and reading of numbers (`{:d}`, `{:X}`, `0>N`).
- `DateTimes` covers naive datetimes and their order, the EXIF `strptime`
  form, and SQLite's `isoformat(' ')` text.
- `Naming` covers `str.lower`, `os.path.splitext`, the extension filter, and
  the canonical name with its reading back.
- `Metadata` covers the EXIF getters and the capture time.
- `Database` covers the catalog tables and the importer's queries and inserts.
- `Ingest` covers the per-file step, the import run, and the import command.
- `Scenarios` holds concrete runs over small inputs.
- `Links` covers the filesystem, the projection, and the link command.

The Photos and Albums tables are sequences in table order, not maps and
sets. That order is what gives `max(Id)` and "the first row `fetchone()`
returns" a meaning. The validity invariant (`Database.Valid`) makes
identities unique and increasing, so the sequence is keyed by identity.
The filesystem is a map from absolute component paths to a directory, a
file or a symbolic link. `os.path.exists` follows at most 40 links, as
Linux does (MAXSYMLINKS).

Parameters stand in for what cannot be computed here:

- the MD5 function (`md5: seq<byte> -> Digest`);
- the result of the directory walk, as a sequence of candidate files with
  their bytes, modification time and decoded tags;
- the outcomes of `os.path.isdir` and `os.access`, as booleans;
- the current working directory.

## Model

| member | source | states |
|---|---|---|
| Naming.ImportableIff | import.py:195 | a file passes the filter exactly when the extension of its lower-cased name is one of the six listed extensions |
| Naming.ImportableExtension | import.py:208-210 | an extension that passes the filter is '.' followed by three or four characters, so it never continues the hex identity |
| Naming.SplitExtParts | import.py:60 | `splitext` splits the path into two parts that concatenate back to it; the extension is empty or a '.' with no further '.' or '/'; it is non-empty exactly when the last component has a '.' preceded by something other than dots |
| Naming.SplitExtPlainName | import.py:208 | a plain name `stem.ext` splits into exactly `stem` and `.ext` |
| Naming.LowerPointwise | import.py:60 | lower-casing keeps the length and maps each character independently |
| Naming.RFindLast | import.py:60 | `rfind` names the last occurrence, and -1 only when there is none |
| Naming.ParseCanonicalName | import.py:61 | the canonical name reads back to the year, month, day, identity and extension it was formatted from |
| Naming.CanonicalNameInjective | import.py:61 | two canonical names are equal only when identity, extension and calendar date are equal; distinct identities never share a name |
| Digits.ToNatFromNat | import.py:61 | a number rendered in decimal or uppercase hex reads back as the number |
| Digits.ToNatPadded | import.py:61 | zero-padding to a width does not change the number a rendering denotes |
| Digits.FromNatInjective | import.py:61 | distinct numbers never share a rendering |
| DateTimes.ParseExif | import.py:98 | a successful parse of `%Y:%m:%d %H:%M:%S` yields a valid instant with no microseconds |
| DateTimes.ParseExifOnlyFormats | import.py:98 | any text the parse accepts is exactly the EXIF text of the instant it yields, so every other text gives no instant |
| DateTimes.ParseFormatExif | import.py:98 | every valid timestamp written in EXIF form parses back to itself, to the second |
| DateTimes.BeforeIsStrictTotalOrder | import.py:99 | the datetime comparison is irreflexive, transitive and total, so "the earlier of two" is well defined |
| DateTimes.IsoFormatShape | link.py:80 | the text stored for a datetime starts with the ten-character `YYYY-MM-DD`, which holds no space, followed by a space |
| Metadata.CaptureTime | import.py:93-103 | the capture time is never after the modification time; it is either the modification time or the parsed tag; it is never after a parsed tag |
| Metadata.TextTag | import.py:63-91 | make, model, software and orientation are the tag's printable text, or '' when the tag set is missing or empty, the key is absent, or the text cannot be produced |
| Metadata.IntTag | import.py:105-123 | width and height are the tag's first value when it is an integer, and 0 otherwise |
| Metadata.AngleTag | import.py:135-159 | latitude and longitude are computed exactly when the first three values are rationals with non-zero denominators, and then from those three values as degrees, minutes and seconds; otherwise they default |
| Metadata.AltitudeTag | import.py:161-170 | altitude is computed exactly when the first value is a rational with a non-zero denominator, and then from that value; otherwise it defaults |
| Metadata.MissingTagsGiveDefaults | import.py:63-170 | with no tag set, or an empty one, every getter yields its default and the capture time is the modification time |
| Database.MaxId | import.py:235 | `max(Id)` is absent exactly for an empty table, bounds every identity, and is one of them |
| Database.NextPhotoId | import.py:234-240 | the next identity is 1 for an empty table and otherwise one past some existing identity; it exceeds every identity present |
| Database.FindPhoto | import.py:271-272 | the lookup finds nothing exactly when no row has both the digest and the size; otherwise it returns the identity of the first such row |
| Database.IsNotDuplicate | import.py:242-245 | a file is new exactly when no record has both its digest and its size |
| Database.AddToPhotos | import.py:247-266 | the insert succeeds exactly when neither the identity nor the name is taken, and then appends the record and changes nothing else |
| Database.AddToAlbums | import.py:268-278 | the insert fails only when no record matches; afterwards the link is present exactly once if it was absent, its count is unchanged if it was present, and every other link keeps its count |
| Database.AddToAlbumsIdempotent | import.py:268-278 | linking a photo into an album a second time changes nothing |
| Database.NamesUnique | import.py:61 | in a valid catalog no two records share a name |
| Ingest.PhotoRecord | import.py:48-61 | a new record carries the allocated identity, the digest and the size; its date is the capture time, valid and not after the modification time; make, model, software, orientation, width, height and the GPS measures are what the getters give; its name is the canonical name, which reads back to its identity and the file's extension |
| Ingest.Archive | import.py:218-220 | storing a new record succeeds exactly when the insert does; then the table gains exactly that record, the link is present, and bulk storage gains the copy under the record's name |
| Ingest.ImportNew | import.py:213-220 | a new file adds exactly one record, the one built for the freshly allocated identity, plus its album link and its bulk copy |
| Ingest.LinkDuplicate | import.py:223-224 | a duplicate adds no record and no copy; only the album link to the existing record, and only when it was absent |
| Ingest.Step | import.py:207-212 | a file that does not pass the filter leaves the state unchanged; one that passes but cannot be opened ends the run with the copies made so far |
| Ingest.StepKeepsValid | import.py:207-226 | from a valid state a pass aborts exactly when the file passes the filter but cannot be opened; otherwise identities stay unique and increasing, (digest, size) stays unique, every name stays the canonical name of its record's date and identity, links stay unique and point at records, and every record has its bulk copy |
| Ingest.RunKeepsValid | import.py:206-226 | a whole run from a valid state completes exactly when every file the filter lets through can be opened, and then ends in a valid state |
| Ingest.ImportNewKeepsValid | import.py:213-222 | importing a new file into a valid state succeeds and keeps it valid |
| Ingest.LinkDuplicateKeepsValid | import.py:223-226 | linking a duplicate into a valid state cannot fail and keeps it valid |
| Ingest.RunKeepsDense | import.py:234-240 | starting from gap-free identities, the n-th record stored has identity n |
| Ingest.StepOnCovered | import.py:213-226 | a file whose content is already recorded and linked into the album changes nothing |
| Ingest.RunCovers | import.py:206-226 | a completed run only grows the catalog and leaves every file it was given filtered out or recorded and linked |
| Ingest.ReimportIsIdempotent | import.py:206-226 | importing the same files again after a completed run changes nothing |
| Ingest.Basename | import.py:220 | `os.path.basename` is the part of a path after its last '/' |
| Ingest.BasenameOfJoin | import.py:220 | the basename of `dir/name` is `name` |
| Ingest.JoinSplitSlash | import.py:191 | splitting a path at its slashes and joining the pieces again gives the path back |
| Ingest.NormStep | import.py:191 | in `os.path.normpath` an empty or `.` component is dropped, `..` removes the component before it unless that is `..`, in which case it is kept, `..` at the root is dropped, and any other component is kept |
| Ingest.AlbumNameIsLastComponent | import.py:191-220 | the album is the last component `os.path.normpath` keeps, or "" for a path from the root and "." otherwise when none is kept |
| Ingest.AlbumNameOfJoin | import.py:191-220 | the album of `dir/name` is `name` for a plain name |
| Ingest.AlbumNameTrailingSlash | import.py:191-220 | a trailing '/' on the import path does not change the album, so `photos/trip/` fills `trip` |
| Ingest.AlbumNameTrailingDot | import.py:191-220 | a trailing `/.` on the import path does not change the album |
| Ingest.AlbumNameOfParent | import.py:191-220 | the import path `dir/name/..` fills the album of `dir` |
| Ingest.ImportMain | import.py:183-232 | the album is the basename of the normalised import path; the exit status is 0 or 1; it is 0 exactly when the checks pass, the log file opens and the run completes (every file the filter lets through opens and every insert succeeds), and then the state is the run's result; on 1 the catalog is as before; a failed check or log file changes nothing |
| Ingest.ImportMainSucceeds | import.py:183-232 | on a valid catalog whose directories and log file check out, the import command exits 0 exactly when every file the filter lets through can be opened, and then leaves a valid state; otherwise the catalog is as before |
| Scenarios.FirstImport | import.py:206-226 | a picture imported into an empty catalog gets identity 1, the earlier EXIF date, and the name `2020-01-01-000001.jpg`, which reads back as that date, identity 1 and `.jpg`; a text file beside it is skipped |
| Links.Mkdir | link.py:61 | `os.mkdir` succeeds exactly when nothing is at the path and the parent is a directory, and then adds only that directory |
| Links.MakeSymlink | link.py:68 | `os.symlink` succeeds exactly when nothing is at the path and the parent is a directory, and then adds only that link |
| Links.EnsureDir | link.py:60-61 | the directory step leaves an existing path untouched and otherwise adds at most that directory; on success the path exists |
| Links.Child | link.py:65-68 | `os.path.join` with an album name: an empty name or `.` stays in the directory, `..` goes to its parent, any other name is one component below it |
| Links.LinkRow | link.py:65-72 | one pass only adds entries, which are the row's directory and link; the directory then exists, the link path is occupied, and a newly made link holds the photo's target |
| Links.LinkRowsPlace | link.py:64-72 | after a completed loop every row's directory exists and its link path is occupied; every added entry is some row's directory or some row's link holding that row's target |
| Links.ProjectIdempotent | link.py:59-88 | when every target leads somewhere, a completed projection run again on its own result completes and makes nothing |
| Links.LinkRowOnPlaced | link.py:65-72 | a pass over a row whose directory exists and whose link path is taken makes nothing: it skips the row, or `os.symlink` refuses a dangling link |
| Links.ProjectRerunMakesNothing | link.py:59-88 | whatever the link text, a completed projection run again on its own result makes nothing, whether it completes or fails on a dangling link |
| Links.LinkCommandRerunMakesNothing | link.py:38-94 | whatever the link text, a successful link command run again leaves the tree as it was |
| Links.LinkMainAsWrittenRerunMakesNothing | link.py:59-88 | the command as written, with any root path, run again after a success leaves the tree as it was |
| Links.LinkRowsOnDone | link.py:67-72 | a loop over rows whose directories and links exist makes nothing |
| Links.DateKey | link.py:80 | with a space, the key is the text before the first space; without one, the text minus its last character; empty text gives an empty key |
| Links.Find | link.py:80 | `find` gives the first index of the character, or -1 when it is absent |
| Links.DateKeyOfStored | link.py:80 | for a stored datetime the key is exactly its `YYYY-MM-DD` date |
| Links.StoredTextHasSpace | link.py:80 | stored datetimes always contain a space, so the no-space case does not arise from the catalog |
| Links.RowsFor | link.py:63 | the join rows for one album link are exactly the photos with that link's identity |
| Links.AlbumRows | link.py:63 | a row (P, A) comes from the album join exactly when some Albums link for A has the identity of some photo named P |
| Links.DateRows | link.py:78-80 | there is one row per photo, named after it, whose directory is its `YYYY-MM-DD` date |
| Links.LinkCommand | link.py:38-94 | the exit status is 0 or 1; a failed check, a criterion other than `date` or `album`, or a log file that cannot be opened gives 1 with nothing made; the tree only grows; on 0 the sort directory exists |
| Links.LinkMainAsWritten | link.py:38-94 | the command with the link text `os.path.join(rootPath, 'bulk', P)`: a failed check, an unsupported criterion or a log file that cannot be opened gives 1 with nothing made |
| Links.LinkMain | link.py:45-48 | with absolute link text, an unsupported criterion exits 1 before anything is made, and the tree only grows |
| Links.LinkCommandIdempotent | link.py:59-88 | for any link text that leads to the bulk copies, with every copy in place, a successful link command run again exits 0 and makes nothing |
| Links.LinkMainIdempotent | link.py:59-88 | with absolute link text and every bulk copy in place, a successful link command run again exits 0 and makes nothing |
| Links.LinkMainAsWrittenIdempotent | link.py:59-88 | the command as written, with an absolute root path and every bulk copy in place, run again after a success exits 0 and makes nothing |
| Links.BulkLinkLeads | link.py:68 | the absolute link text leads to `bulk/P` from wherever the link sits |
| Links.AsWrittenLeadsOnAbsoluteRoot | link.py:68 | with an absolute root path, the link text as written leads to `bulk/P` from wherever the link sits |
| Links.AlbumLinksPlaced | link.py:59-68 | after a successful `--by album` run, whatever the link text, photo P in album A has the directory `sort/by_album/A` and an entry at `sort/by_album/A/P`, with A read as `os.path.join` reads it |
| Links.AlbumEntriesMade | link.py:59-72 | every entry a successful `--by album` run added, besides `sort/by_album`, is an album directory of the join or the link `A/P` holding the link text for P |
| Links.LinkMainEntriesMade | link.py:59-72 | for the corrected command, every added entry is an album directory or a link `A/P` holding the absolute path of `bulk/P` |
| Links.AsWrittenEntriesMade | link.py:59-72 | for the command as written, every added entry is an album directory or a link `A/P` holding `os.path.join(rootPath, 'bulk', P)` |
| Links.DateLinksPlaced | link.py:74-84 | after a successful `--by date` run, whatever the link text, every photo has the directory of its capture date and an entry for itself in it |
| Links.DateRowDir | link.py:80-84 | the date key is one plain component, so a photo's date directory and link sit directly below `sort/by_date` |
| Links.AsWrittenAgreesOnAbsoluteRoot | link.py:68 | with an absolute root path, the link text as written is already the corrected text |
| Links.RelativeRootBreaksRerun | link.py:68 | with a relative root path, the first run exits 0 but leaves a link that leads nowhere, and the second run exits 1 |
| Links.RelativeRootFixed | link.py:68 | on the same input, absolute link text leads to the bulk copy and a rerun exits 0 and makes nothing |

## Left out

- MD5 and file reading: the digest is a function parameter; the size is the length of the bytes. Whether the file opens is a flag on the candidate (`Ingest.Readable`): `Photo(...)` opens every file the filter lets through (import.py:31), duplicates included, and a failure ends the run.
- Ingest.ImportMain: the flag stands for both opens of a file, for its digest (import.py:31) and for the EXIF decoder (import.py:49). A file that opens the first time but not the second, or that makes the decoder raise, is not modelled separately.
- The EXIF decoder: tags are given as an optional map of decoded tags.
- Float arithmetic for GPS: a measure is kept as the rationals it is computed from, not as the float result.
- Ingest.ImportMain: SQLite transactions are reduced to "commit at the end, roll back on an uncaught error". Locking and partial commits are not modelled.
- Ingest.ImportMain: `shutil.copy2` is modelled as an update of the bulk map, with the file's bytes and modification time. Permissions, other metadata and copy failures are not modelled.
- Ingest.ImportMain: the directory walk is given as the sequence of candidates it yields, in walk order. `os.walk`'s order and its handling of symbolic links are not modelled.
- Progress dots, argument parsing and the banners are output only. The log file is reduced to whether it opens: `logging.basicConfig` opens `<root>/log/<timestamp>.log` at once (import.py:198, link.py:51), and a failure there ends the command with exit 1 before the catalog is opened. That is the `logOpens` flag. The file it writes is not part of the modelled tree, because its name comes from the clock.
- `create.py` is not part of this model. It creates directories and the tables; the only things taken from it are the unique Id and Name columns, which `Database.AddToPhotos` refuses to duplicate.
- `os.path.normpath` is modelled for the import path, where it decides the album (`Ingest.NormPath`). For the link command the root path is taken already normalised, as a component list without `.` or `..`. Album names are read as `os.path.join` reads them (`Links.Child`), so the labels `.`, `..` and the empty name, which `--importPath .`, `..` or `/` give, are covered.
- Links.LinkRow: a photo name is taken as one path component, and an album name holding a `/` is not modelled. Photo names are canonical names and album names are basenames, so neither holds a `/`.
- Naming.LowerChar: only ASCII letters are lower-cased. Python's `str.lower` also maps non-ASCII letters.
- DateTimes.ParseExif: `strptime` also accepts single-digit fields and runs of whitespace. The model accepts only the two-digit, single-space form EXIF writes, so a tag in another form defaults to the modification time.
- Metadata.IntTag: the model records 0 for any first value that is not an integer. The source passes `values[0]` unchanged to the insert (import.py:110, 120, 249-265). A text value is stored as text. A rational cannot be bound by `sqlite3`, so `add_to_photos` raises, and the run ends with exit 1, the catalog rolled back and the copies already made left in bulk. The model carries on in both cases, so `Ingest.ImportMain` reports exit 0 on such input.
- The conversion of the modification time to local time (`fromtimestamp`) is not modelled. The candidate carries its local modification time.
- Links.LinkRow: an intermediate directory reached through a symbolic link is not modelled. `Mkdir` and `MakeSymlink` check the parent only as a directory entry.
- Links.AlbumRows: SQLite does not fix the order of join rows. The model yields them grouped by Albums link; only which rows occur is stated.
- Scenarios.FirstImport: stated step by step rather than as one `Run` over a list of files.

## Findings

| source | as written | input that shows it | evidently intended | confidence | as-written member | corrected member |
|---|---|---|---|---|---|---|
| link.py:68, link.py:84 | the link text is `os.path.join(rootPath, 'bulk', photo)`. When `--rootPath` is relative, this text is relative too, and the system resolves it from the link's own directory `sort/by_album/A`, not from the working directory | working directory `/home`, `--rootPath db`, one photo `x` in album `a`, with `/home/db/bulk/x` present. The first run exits 0, but `/home/db/sort/by_album/a/x` leads to `/home/db/sort/by_album/a/db/bulk/x`, which does not exist. On the second run `os.path.exists` is false for that dangling link, so `os.symlink` raises FileExistsError and the command exits 1 | the link leads to the bulk copy, and a rerun skips the existing link | high (not executed) | Links.BulkLinkAsWritten, Links.RelativeRootBreaksRerun | Links.BulkLink, Links.LinkMainIdempotent, Links.RelativeRootFixed |

=== FILE: database.dfy ===
/**
 The catalog: the Photos table, one record per archived photo, and the
 Albums table of (album, photo) links, with the queries and inserts the
 importer runs against them. Rows are kept in table order.
 */
module Database {
  import opened Wrappers
  import opened DateTimes
  import opened Metadata
  import opened Naming

  /** The hex MD5 digest of a file's bytes. */
  type Digest = string

  datatype Record = Record(
    id: nat,
    name: string,
    hash: Digest,
    size: nat,
    dateTime: DateTime,
    make: string,
    model: string,
    software: string,
    width: int,
    height: int,
    orientation: string,
    latitude: Measure,
    longitude: Measure,
    altitude: Measure)

  datatype AlbumLink = AlbumLink(album: string, photoId: nat)

  datatype Catalog = Catalog(photos: seq<Record>, albums: seq<AlbumLink>)

  /**
   The failures of the importer's statements: the Photos table's primary
   key or unique Name refusing an insert, and a photo lookup that finds no
   row (subscripting the `None` that `fetchone()` returns).
   */
  datatype DbError = IdTaken | NameTaken | PhotoMissing

  /** `SELECT max(Photos.Id) FROM Photos`: `None` for an empty table. */
  function MaxId(photos: seq<Record>): (m: Option<nat>)
    ensures m.None? <==> photos == []
    ensures m.Some? ==> forall i :: 0 <= i < |photos| ==> photos[i].id <= m.value
    ensures m.Some? ==> exists i :: 0 <= i < |photos| && photos[i].id == m.value
  {
    if photos == [] then None
    else
      var last := photos[|photos| - 1];
      match MaxId(photos[..|photos| - 1])
      case None => Some(last.id)
      case Some(m) => if last.id > m then Some(last.id) else Some(m)
  }

  /** The identity a new photo gets: 1 for an empty table, otherwise max(Id) + 1. */
  function NextPhotoId(photos: seq<Record>): (r: nat)
    ensures r >= 1
    ensures forall i :: 0 <= i < |photos| ==> photos[i].id < r
    ensures photos == [] ==> r == 1
    ensures photos != [] ==> exists i :: 0 <= i < |photos| && photos[i].id + 1 == r
  {
    match MaxId(photos)
    case None => 1
    case Some(m) => m + 1
  }

  predicate SameContent(r: Record, hash: Digest, size: nat) {
    r.hash == hash && r.size == size
  }

  /**
   `SELECT Photos.Id FROM Photos WHERE Hash=? AND Size=?` and `fetchone()`:
   the identity on the first matching row.
   */
  function FindPhoto(photos: seq<Record>, hash: Digest, size: nat): (r: Option<nat>)
    ensures r.None? <==> forall i :: 0 <= i < |photos| ==> !SameContent(photos[i], hash, size)
    ensures r.Some? ==> exists i :: 0 <= i < |photos| && SameContent(photos[i], hash, size)
                                    && photos[i].id == r.value
                                    && forall j :: 0 <= j < i ==> !SameContent(photos[j], hash, size)
  {
    if photos == [] then None
    else if SameContent(photos[0], hash, size) then Some(photos[0].id)
    else
      var r := FindPhoto(photos[1..], hash, size);
      assert forall i :: 1 <= i < |photos| ==> photos[i] == photos[1..][i - 1];
      r
  }

  /** A file is new exactly when no record has both its digest and its size. */
  function IsNotDuplicate(photos: seq<Record>, hash: Digest, size: nat): (r: bool)
    ensures r <==> forall i :: 0 <= i < |photos| ==> !(photos[i].hash == hash && photos[i].size == size)
  {
    FindPhoto(photos, hash, size).None?
  }

  /** `INSERT INTO Photos`, refused when the identity or the name is already present. */
  function AddToPhotos(cat: Catalog, rec: Record): (r: Result<Catalog, DbError>)
    ensures r.Ok? <==> forall i :: 0 <= i < |cat.photos| ==> cat.photos[i].id != rec.id && cat.photos[i].name != rec.name
    ensures r.Ok? ==> r.value == cat.(photos := cat.photos + [rec])
  {
    if exists i :: 0 <= i < |cat.photos| && cat.photos[i].id == rec.id then Err(IdTaken)
    else if exists i :: 0 <= i < |cat.photos| && cat.photos[i].name == rec.name then Err(NameTaken)
    else Ok(cat.(photos := cat.photos + [rec]))
  }

  /**
   `add_to_albums`: looks up the photo's identity by digest and size, then
   inserts the (album, identity) link unless that link is already present.
   Afterwards the link is present exactly once if it was absent, its count
   is unchanged if it was present, and every other link keeps its count.
   */
  function AddToAlbums(cat: Catalog, hash: Digest, size: nat, album: string): (r: Result<Catalog, DbError>)
    ensures r.Ok? <==> FindPhoto(cat.photos, hash, size).Some?
    ensures r.Ok? ==> r.value.photos == cat.photos
    ensures r.Ok? ==>
      var link := AlbumLink(album, FindPhoto(cat.photos, hash, size).value);
      && link in r.value.albums
      && multiset(r.value.albums)[link] == (if link in cat.albums then multiset(cat.albums)[link] else 1)
      && (forall l :: l != link ==> multiset(r.value.albums)[l] == multiset(cat.albums)[l])
      && (r.value.albums == cat.albums || r.value.albums == cat.albums + [link])
      && (r.value.albums == cat.albums + [link] ==> link !in cat.albums)
  {
    match FindPhoto(cat.photos, hash, size)
    case None => Err(PhotoMissing)
    case Some(id) =>
      var link := AlbumLink(album, id);
      if link in cat.albums then Ok(cat)
      else
        assert multiset(cat.albums + [link]) == multiset(cat.albums) + multiset{link};
        Ok(cat.(albums := cat.albums + [link]))
  }

  /** Linking a photo into an album a second time changes nothing. */
  lemma AddToAlbumsIdempotent(cat: Catalog, hash: Digest, size: nat, album: string)
    requires AddToAlbums(cat, hash, size, album).Ok?
    ensures var once := AddToAlbums(cat, hash, size, album).value;
      AddToAlbums(once, hash, size, album) == Ok(once)
  {
  }

  /** The identities present in the Photos table. */
  function Ids(photos: seq<Record>): set<nat> {
    set r | r in photos :: r.id
  }

  /**
   What the importer keeps true of the catalog: identities positive and
   increasing in table order, (digest, size) unique, every name the canonical
   name of its record's date and identity, links unique and pointing at records.
   */
  predicate Valid(cat: Catalog) {
    && PhotosValid(cat.photos)
    && (forall i, j :: 0 <= i < j < |cat.albums| ==> cat.albums[i] != cat.albums[j])
    && (forall i :: 0 <= i < |cat.albums| ==> cat.albums[i].photoId in Ids(cat.photos))
  }

  /** The Photos-table half of `Valid`. */
  predicate PhotosValid(photos: seq<Record>) {
    && (forall i :: 0 <= i < |photos| ==> photos[i].id >= 1 && photos[i].dateTime.Valid())
    && (forall i, j :: 0 <= i < j < |photos| ==> photos[i].id < photos[j].id)
    && (forall i, j :: 0 <= i < j < |photos| ==> !SameContent(photos[i], photos[j].hash, photos[j].size))
    && (forall i :: 0 <= i < |photos| ==> CanonicallyNamed(photos[i]))
  }

  /** The name is the canonical name of the record's date and identity, so it reads back to that identity. */
  predicate CanonicallyNamed(r: Record) {
    && r.dateTime.Valid()
    && ParseName(r.name).Some?
    && ParseName(r.name).value.id == r.id
    && r.name == CanonicalName(r.dateTime, r.id, ParseName(r.name).value.ext)
  }

  /** In a valid catalog no two records share a name. */
  lemma NamesUnique(cat: Catalog)
    requires Valid(cat)
    ensures forall i, j :: 0 <= i < j < |cat.photos| ==> cat.photos[i].name != cat.photos[j].name
  {
    forall i, j | 0 <= i < j < |cat.photos|
      ensures cat.photos[i].name != cat.photos[j].name
    {
      assert CanonicallyNamed(cat.photos[i]) && CanonicallyNamed(cat.photos[j]);
    }
  }

  /** A record whose name carries an identity unused so far can always be inserted. */
  lemma FreshRecordInserts(cat: Catalog, rec: Record)
    requires Valid(cat)
    requires CanonicallyNamed(rec)
    requires forall i :: 0 <= i < |cat.photos| ==> cat.photos[i].id < rec.id
    ensures AddToPhotos(cat, rec).Ok?
  {
    forall i | 0 <= i < |cat.photos|
      ensures cat.photos[i].name != rec.name
    {
      assert CanonicallyNamed(cat.photos[i]);
    }
  }

  /** Matches found in a table are still the first ones after rows are appended. */
  lemma {:induction false} FindPhotoAppend(photos: seq<Record>, more: seq<Record>, hash: Digest, size: nat)
    requires FindPhoto(photos, hash, size).Some?
    ensures FindPhoto(photos + more, hash, size) == FindPhoto(photos, hash, size)
  {
    if !SameContent(photos[0], hash, size) {
      assert (photos + more)[1..] == photos[1..] + more;
      FindPhotoAppend(photos[1..], more, hash, size);
    }
  }

  /** A record appended to a table with no match for its content is what the lookup finds. */
  lemma FindPhotoNew(photos: seq<Record>, rec: Record)
    requires FindPhoto(photos, rec.hash, rec.size).None?
    ensures FindPhoto(photos + [rec], rec.hash, rec.size) == Some(rec.id)
  {
    var r := FindPhoto(photos + [rec], rec.hash, rec.size);
    assert SameContent((photos + [rec])[|photos|], rec.hash, rec.size);
    if r.Some? {
      var i :| 0 <= i < |photos + [rec]| && SameContent((photos + [rec])[i], rec.hash, rec.size)
               && (photos + [rec])[i].id == r.value
               && forall j :: 0 <= j < i ==> !SameContent((photos + [rec])[j], rec.hash, rec.size);
      if i < |photos| {
        assert (photos + [rec])[i] == photos[i];
      }
    }
  }
}

=== FILE: datetimes.dfy ===
/**
 Naive calendar timestamps as Python's `datetime.datetime` holds them, with
 Python's ordering, the EXIF text form `%Y:%m:%d %H:%M:%S` read by
 `datetime.strptime`, and the ISO form SQLite's default adapter stores.
 */
module DateTimes {
  import opened Wrappers
  import opened Digits

  datatype DateTime = DateTime(year: int, month: int, day: int,
                               hour: int, minute: int, second: int, micro: int)
  {
    /** The ranges `datetime.datetime` enforces on construction. */
    predicate Valid() {
      && 1 <= year <= 9999
      && 1 <= month <= 12
      && 1 <= day <= DaysInMonth(year, month)
      && 0 <= hour < 24
      && 0 <= minute < 60
      && 0 <= second < 60
      && 0 <= micro < 1000000
    }
  }

  predicate IsLeapYear(y: int) {
    y % 4 == 0 && (y % 100 != 0 || y % 400 == 0)
  }

  function DaysInMonth(y: int, m: int): (r: int)
    ensures 28 <= r <= 31
  {
    if m == 2 then (if IsLeapYear(y) then 29 else 28)
    else if m == 4 || m == 6 || m == 9 || m == 11 then 30
    else 31
  }

  /** `a < b` on naive datetimes: field by field, most significant first. */
  predicate Before(a: DateTime, b: DateTime) {
    if a.year != b.year then a.year < b.year
    else if a.month != b.month then a.month < b.month
    else if a.day != b.day then a.day < b.day
    else if a.hour != b.hour then a.hour < b.hour
    else if a.minute != b.minute then a.minute < b.minute
    else if a.second != b.second then a.second < b.second
    else a.micro < b.micro
  }

  predicate NotAfter(a: DateTime, b: DateTime) {
    Before(a, b) || a == b
  }

  /** `Before` is a strict total order, so "the earlier of two" is well defined. */
  lemma BeforeIsStrictTotalOrder(a: DateTime, b: DateTime, c: DateTime)
    ensures !Before(a, a)
    ensures Before(a, b) && Before(b, c) ==> Before(a, c)
    ensures a != b ==> (Before(a, b) <==> !Before(b, a))
  {
  }

  /** A decimal field of at least `width` digits, zero-filled (`%0<width>d`). */
  function Field(v: nat, width: nat): string {
    PadLeft(FromNat(v, 10), width)
  }

  lemma FieldExact(v: nat, width: nat)
    requires 1 <= width
    requires v < Pow10(width)
    ensures |Field(v, width)| == width
    ensures AllDigits(Field(v, width), 10)
    ensures ToNat(Field(v, width), 10) == v
  {
    DecimalWidth(v, width);
    ToNatPadded(v, width, 10);
  }

  /** The decimal number in the first `width` characters of `s`, and what follows it. */
  function Chunk(s: string, width: nat): Option<(nat, string)> {
    if width <= |s| && AllDigits(s[..width], 10) then Some((ToNat(s[..width], 10), s[width..]))
    else None
  }

  /** What follows the separator `c` at the head of `s`. */
  function Expect(s: string, c: char): Option<string> {
    if |s| > 0 && s[0] == c then Some(s[1..]) else None
  }

  lemma ChunkOf(f: string, rest: string)
    requires AllDigits(f, 10)
    ensures Chunk(f + rest, |f|) == Some((ToNat(f, 10), rest))
  {
    assert (f + rest)[..|f|] == f;
  }

  lemma ExpectOf(c: char, rest: string)
    ensures Expect([c] + rest, c) == Some(rest)
  {
  }

  /**
   Three decimal numbers of widths `w`, 2 and 2 joined by `sep`, as in
   `%Y:%m:%d` or `%H:%M:%S`, and what follows them.
   */
  function Triple(s: string, w: nat, sep: char): Option<(nat, nat, nat, string)> {
    var (a, r1) :- Chunk(s, w);
    var r2 :- Expect(r1, sep);
    var (b, r3) :- Chunk(r2, 2);
    var r4 :- Expect(r3, sep);
    var (c, r5) :- Chunk(r4, 2);
    Some((a, b, c, r5))
  }

  /** Reading three fields back from their right-nested concatenation. */
  lemma TripleOfNested(x: string, y: string, z: string, sep: char, rest: string)
    requires |y| == 2 && |z| == 2
    requires AllDigits(x, 10) && AllDigits(y, 10) && AllDigits(z, 10)
    ensures Triple(x + ([sep] + (y + ([sep] + (z + rest)))), |x|, sep)
      == Some((ToNat(x, 10), ToNat(y, 10), ToNat(z, 10), rest))
  {
    ChunkOf(x, [sep] + (y + ([sep] + (z + rest))));
    ExpectOf(sep, y + ([sep] + (z + rest)));
    ChunkOf(y, [sep] + (z + rest));
    ExpectOf(sep, z + rest);
    ChunkOf(z, rest);
  }

  lemma Join3Append(x: string, y: string, z: string, sep: char, rest: string)
    ensures Join3(x, y, z, sep) + rest == x + ([sep] + (y + ([sep] + (z + rest))))
  {
  }

  lemma TripleOf(x: string, y: string, z: string, sep: char, rest: string)
    requires |y| == 2 && |z| == 2
    requires AllDigits(x, 10) && AllDigits(y, 10) && AllDigits(z, 10)
    ensures Join3(x, y, z, sep) + rest == x + ([sep] + (y + ([sep] + (z + rest))))
    ensures Triple(Join3(x, y, z, sep) + rest, |x|, sep)
      == Some((ToNat(x, 10), ToNat(y, 10), ToNat(z, 10), rest))
  {
    Join3Append(x, y, z, sep, rest);
    TripleOfNested(x, y, z, sep, rest);
  }

  /**
   `datetime.strptime(s, '%Y:%m:%d %H:%M:%S')` for the two-digit form EXIF
   writes: `None` when the text does not match or names no real instant.
   */
  function ParseExif(s: string): (r: Option<DateTime>)
    ensures r.Some? ==> r.value.Valid() && r.value.micro == 0
  {
    var (year, month, day, r1) :- Triple(s, 4, ':');
    var r2 :- Expect(r1, ' ');
    var (hour, minute, second, r3) :- Triple(r2, 2, ':');
    if r3 == [] then Instant(year, month, day, hour, minute, second) else None
  }

  /** The timestamp with these fields, when they name a real instant. */
  function Instant(year: nat, month: nat, day: nat, hour: nat, minute: nat, second: nat): (r: Option<DateTime>)
    ensures r.Some? ==> r.value.Valid() && r.value.micro == 0
  {
    var dt := DateTime(year, month, day, hour, minute, second, 0);
    if dt.Valid() then Some(dt) else None
  }

  /** `a`, `b` and `c` joined by `sep`. */
  function Join3(a: string, b: string, c: string, sep: char): string {
    a + ([sep] + (b + ([sep] + c)))
  }

  /** The EXIF text of a timestamp, as a camera writes `Image DateTime`. */
  function FormatExif(dt: DateTime): string
    requires dt.Valid()
  {
    Join3(Field(dt.year, 4), Field(dt.month, 2), Field(dt.day, 2), ':')
      + ([' '] + Join3(Field(dt.hour, 2), Field(dt.minute, 2), Field(dt.second, 2), ':'))
  }

  lemma Pow10Values()
    ensures Pow10(2) == 100 && Pow10(4) == 10000 && Pow10(6) == 1000000
  {
  }

  /** Once the date and the time have been read, the text names their instant. */
  lemma ParseExifParts(date: string, time: string, year: nat, month: nat, day: nat,
                       hour: nat, minute: nat, second: nat)
    requires Triple(date + ([' '] + time), 4, ':') == Some((year, month, day, [' '] + time))
    requires Triple(time, 2, ':') == Some((hour, minute, second, []))
    ensures ParseExif(date + ([' '] + time)) == Instant(year, month, day, hour, minute, second)
  {
    ExpectOf(' ', time);
  }

  /** Six digit fields of the right widths, joined in EXIF form, read back as their values. */
  lemma ParseExifFields(y: string, mo: string, d: string, h: string, mi: string, se: string, dt: DateTime)
    requires |mo| == 2 && |d| == 2 && |h| == 2 && |mi| == 2 && |se| == 2 && |y| == 4
    requires AllDigits(y, 10) && AllDigits(mo, 10) && AllDigits(d, 10)
    requires AllDigits(h, 10) && AllDigits(mi, 10) && AllDigits(se, 10)
    requires dt.Valid()
    requires ToNat(y, 10) == dt.year && ToNat(mo, 10) == dt.month && ToNat(d, 10) == dt.day
    requires ToNat(h, 10) == dt.hour && ToNat(mi, 10) == dt.minute && ToNat(se, 10) == dt.second
    ensures ParseExif(Join3(y, mo, d, ':') + ([' '] + Join3(h, mi, se, ':'))) == Some(dt.(micro := 0))
  {
    var time := Join3(h, mi, se, ':');
    TripleOf(y, mo, d, ':', [' '] + time);
    TripleOf(h, mi, se, ':', []);
    assert time + [] == time;
    ParseExifParts(Join3(y, mo, d, ':'), time, dt.year, dt.month, dt.day, dt.hour, dt.minute, dt.second);
    assert Instant(dt.year, dt.month, dt.day, dt.hour, dt.minute, dt.second) == Some(dt.(micro := 0));
  }

  /** Every valid timestamp, written in EXIF form, reads back to itself (to the second). */
  lemma ParseFormatExif(dt: DateTime)
    requires dt.Valid()
    ensures ParseExif(FormatExif(dt)) == Some(dt.(micro := 0))
  {
    Pow10Values();
    FieldExact(dt.year, 4);
    FieldExact(dt.month, 2);
    FieldExact(dt.day, 2);
    FieldExact(dt.hour, 2);
    FieldExact(dt.minute, 2);
    FieldExact(dt.second, 2);
    ParseExifFields(Field(dt.year, 4), Field(dt.month, 2), Field(dt.day, 2),
                    Field(dt.hour, 2), Field(dt.minute, 2), Field(dt.second, 2), dt);
  }

  /** A field of `w` decimal digits is the zero-filled rendering of the number it denotes. */
  lemma FieldOfDigits(x: string, w: nat)
    requires 1 <= w && |x| == w && AllDigits(x, 10)
    ensures Field(ToNat(x, 10), w) == x
  {
    var v := ToNat(x, 10);
    ToNatBound(x);
    FieldExact(v, w);
    DigitsDetermined(Field(v, w), x);
  }

  /** The three digit fields and the rest that a successful `Triple` read. */
  lemma TripleParts(s: string, w: nat, sep: char) returns (x: string, y: string, z: string, rest: string)
    requires Triple(s, w, sep).Some?
    ensures |x| == w && |y| == 2 && |z| == 2
    ensures AllDigits(x, 10) && AllDigits(y, 10) && AllDigits(z, 10)
    ensures s == Join3(x, y, z, sep) + rest
    ensures Triple(s, w, sep) == Some((ToNat(x, 10), ToNat(y, 10), ToNat(z, 10), rest))
  {
    var r1, r2, r3, r4;
    x, r1 := ChunkParts(s, w);
    r2 := ExpectParts(r1, sep);
    y, r3 := ChunkParts(r2, 2);
    r4 := ExpectParts(r3, sep);
    z, rest := ChunkParts(r4, 2);
    Join3Append(x, y, z, sep, rest);
    TripleOfNested(x, y, z, sep, rest);
  }

  /** A chunk that reads splits its text into the digits read and the rest. */
  lemma ChunkParts(s: string, w: nat) returns (f: string, rest: string)
    requires Chunk(s, w).Some?
    ensures |f| == w && AllDigits(f, 10) && s == f + rest
  {
    f, rest := s[..w], s[w..];
    assert s == f + rest;
  }

  /** An expected separator that is found heads its text. */
  lemma ExpectParts(s: string, c: char) returns (rest: string)
    requires Expect(s, c).Some?
    ensures s == [c] + rest
  {
    rest := s[1..];
    assert s == [c] + rest;
  }

  /**
   Any text the EXIF parse accepts is exactly the EXIF form of the instant
   it yields: the parse accepts nothing but `FormatExif` texts.
   */
  lemma ParseExifOnlyFormats(s: string)
    requires ParseExif(s).Some?
    ensures s == FormatExif(ParseExif(s).value)
  {
    var dt := ParseExif(s).value;
    var x, y, z, r1 := TripleParts(s, 4, ':');
    var r2 := r1[1..];
    assert r1 == [' '] + r2;
    var h, mi, se, r3 := TripleParts(r2, 2, ':');
    assert r3 == [];
    assert r2 == Join3(h, mi, se, ':');
    FieldOfDigits(x, 4);
    FieldOfDigits(y, 2);
    FieldOfDigits(z, 2);
    FieldOfDigits(h, 2);
    FieldOfDigits(mi, 2);
    FieldOfDigits(se, 2);
  }

  /** `YYYY-MM-DD`, the date part of `datetime.isoformat`. */
  function IsoDate(dt: DateTime): string
    requires dt.Valid()
  {
    Field(dt.year, 4) + "-" + Field(dt.month, 2) + "-" + Field(dt.day, 2)
  }

  /**
   The text SQLite's default adapter stores for a `datetime`:
   `isoformat(' ')`, whose fraction appears only when it is non-zero.
   */
  function IsoFormat(dt: DateTime): string
    requires dt.Valid()
  {
    IsoDate(dt) + " " + IsoTime(dt)
  }

  /** `HH:MM:SS`, followed by `.ffffff` only when the microseconds are non-zero. */
  function IsoTime(dt: DateTime): string
    requires dt.Valid()
  {
    Field(dt.hour, 2) + ":" + Field(dt.minute, 2) + ":" + Field(dt.second, 2)
      + (if dt.micro != 0 then "." + Field(dt.micro, 6) else "")
  }

  /** A `YYYY-MM-DD` text made of digit fields holds no space. */
  lemma IsoDateLayout(y: string, mo: string, d: string)
    requires |y| == 4 && |mo| == 2 && |d| == 2
    requires AllDigits(y, 10) && AllDigits(mo, 10) && AllDigits(d, 10)
    ensures var s := y + "-" + mo + "-" + d;
      |s| == 10 && forall i :: 0 <= i < 10 ==> s[i] != ' '
  {
    var s := y + "-" + mo + "-" + d;
    forall i | 0 <= i < 10
      ensures s[i] != ' '
    {
      if i < 4 {
        assert s[i] == y[i] && IsDigit(y[i], 10);
      } else if i == 4 || i == 7 {
        assert s[i] == '-';
      } else if i < 7 {
        assert s[i] == mo[i - 5] && IsDigit(mo[i - 5], 10);
      } else {
        assert s[i] == d[i - 8] && IsDigit(d[i - 8], 10);
      }
    }
  }

  /** The date part is ten characters, none of them a space. */
  lemma IsoDateShape(dt: DateTime)
    requires dt.Valid()
    ensures |IsoDate(dt)| == 10
    ensures forall i :: 0 <= i < 10 ==> IsoDate(dt)[i] != ' '
  {
    Pow10Values();
    FieldExact(dt.year, 4);
    FieldExact(dt.month, 2);
    FieldExact(dt.day, 2);
    IsoDateLayout(Field(dt.year, 4), Field(dt.month, 2), Field(dt.day, 2));
  }

  /** The stored text starts with the ten-character date and a space. */
  lemma IsoFormatShape(dt: DateTime)
    requires dt.Valid()
    ensures |IsoDate(dt)| == 10
    ensures forall i :: 0 <= i < 10 ==> IsoDate(dt)[i] != ' '
    ensures IsoFormat(dt)[..10] == IsoDate(dt)
    ensures IsoFormat(dt)[10] == ' '
  {
    IsoDateShape(dt);
    var date, time := IsoDate(dt), IsoTime(dt);
    assert IsoFormat(dt) == date + (" " + time);
  }
}

=== FILE: digits.dfy ===
/**
 Positional rendering of natural numbers, as Python's `str.format` does it
 for the `d` and `X` presentation types (uppercase hexadecimal), with
 zero-filled right alignment (`0>N`), and the inverse reading used to show
 that a rendering determines its number.
 */
module Digits {

  /** The digit character for `d` in bases up to 16 (uppercase letters). */
  function DigitChar(d: nat): (c: char)
    requires d < 16
    ensures CharValue(c) == d
  {
    if d < 10 then ('0' as int + d) as char else ('A' as int + d - 10) as char
  }

  /** The value of a digit character, or 16 for a character that is no digit. */
  function CharValue(c: char): (v: nat)
    ensures v <= 16
  {
    if '0' <= c <= '9' then c as int - '0' as int
    else if 'A' <= c <= 'F' then c as int - 'A' as int + 10
    else 16
  }

  predicate IsDigit(c: char, base: nat) {
    CharValue(c) < base
  }

  predicate AllDigits(s: string, base: nat) {
    forall i :: 0 <= i < |s| ==> IsDigit(s[i], base)
  }

  /** The two bases the source renders in: decimal and hexadecimal. */
  predicate IsBase(base: nat) {
    base == 10 || base == 16
  }

  /** `n` written in `base` without leading zeros ("0" for zero). */
  function FromNat(n: nat, base: nat): (s: string)
    requires IsBase(base)
    ensures 1 <= |s|
    ensures AllDigits(s, base)
    ensures n < base <==> |s| == 1
    decreases n
  {
    if n < base then [DigitChar(n)]
    else FromNat(n / base, base) + [DigitChar(n % base)]
  }

  /** The number a digit string denotes in `base`; the empty string denotes 0. */
  function ToNat(s: string, base: nat): nat
    requires IsBase(base)
    requires AllDigits(s, base)
  {
    if s == [] then 0
    else ToNat(s[..|s| - 1], base) * base + CharValue(s[|s| - 1])
  }

  /** Reading back a rendered number gives the number. */
  lemma {:induction false} ToNatFromNat(n: nat, base: nat)
    requires IsBase(base)
    ensures ToNat(FromNat(n, base), base) == n
    decreases n
  {
    if n >= base {
      var s := FromNat(n, base);
      var q, d := n / base, n % base;
      assert q * base + d == n;
      assert s[..|s| - 1] == FromNat(q, base);
      assert CharValue(s[|s| - 1]) == d;
      ToNatFromNat(q, base);
    }
  }

  /** Rendering is injective: distinct numbers never share a rendering. */
  lemma FromNatInjective(m: nat, n: nat, base: nat)
    requires IsBase(base)
    requires FromNat(m, base) == FromNat(n, base)
    ensures m == n
  {
    ToNatFromNat(m, base);
    ToNatFromNat(n, base);
  }

  function Pow10(w: nat): nat {
    if w == 0 then 1 else 10 * Pow10(w - 1)
  }

  /** A number below 10^w takes at most w decimal digits. */
  lemma {:induction false} DecimalWidth(n: nat, w: nat)
    requires 1 <= w
    requires n < Pow10(w)
    ensures |FromNat(n, 10)| <= w
  {
    if n >= 10 {
      assert w >= 2 by {
        assert w != 1 ==> w >= 2;
      }
      assert n / 10 < Pow10(w - 1);
      DecimalWidth(n / 10, w - 1);
    }
  }

  /** A decimal digit string of length w denotes a number below 10^w. */
  lemma {:induction false} ToNatBound(s: string)
    requires AllDigits(s, 10)
    ensures ToNat(s, 10) < Pow10(|s|)
    decreases |s|
  {
    if s != [] {
      var init := s[..|s| - 1];
      assert AllDigits(init, 10);
      ToNatBound(init);
      assert ToNat(init, 10) <= Pow10(|init|) - 1;
      assert ToNat(s, 10) <= (Pow10(|init|) - 1) * 10 + 9;
    }
  }

  /** Two decimal digit strings of the same length that denote the same number are equal. */
  lemma {:induction false} DigitsDetermined(a: string, b: string)
    requires |a| == |b|
    requires AllDigits(a, 10) && AllDigits(b, 10)
    requires ToNat(a, 10) == ToNat(b, 10)
    ensures a == b
    decreases |a|
  {
    if a != [] {
      var ia, ib := a[..|a| - 1], b[..|b| - 1];
      var da, db := CharValue(a[|a| - 1]), CharValue(b[|b| - 1]);
      assert AllDigits(ia, 10) && AllDigits(ib, 10);
      assert IsDigit(a[|a| - 1], 10) && IsDigit(b[|b| - 1], 10);
      assert ToNat(ia, 10) * 10 + da == ToNat(ib, 10) * 10 + db;
      assert da == db && ToNat(ia, 10) == ToNat(ib, 10) by {
        DivideByTen(ToNat(ia, 10), da, ToNat(ib, 10), db);
      }
      assert a[|a| - 1] == b[|b| - 1];
      DigitsDetermined(ia, ib);
      assert a == ia + [a[|a| - 1]] && b == ib + [b[|b| - 1]];
    }
  }

  /** The quotient and the remainder by ten are unique. */
  lemma DivideByTen(x: nat, d: nat, y: nat, e: nat)
    requires d < 10 && e < 10
    requires x * 10 + d == y * 10 + e
    ensures x == y && d == e
  {
  }

  function Zeros(k: nat): (s: string)
    ensures |s| == k
    ensures forall i :: 0 <= i < k ==> s[i] == '0'
  {
    if k == 0 then [] else Zeros(k - 1) + ['0']
  }

  /** `s` right-aligned in a field of `width`, filled with '0' (Python's `0>width`). */
  function PadLeft(s: string, width: nat): (r: string)
    ensures |r| == if |s| < width then width else |s|
    ensures r[|r| - |s|..] == s
    ensures forall i :: 0 <= i < |r| - |s| ==> r[i] == '0'
  {
    if |s| < width then Zeros(width - |s|) + s else s
  }

  /** Leading zeros do not change the number a digit string denotes. */
  lemma {:induction false} ToNatLeadingZeros(k: nat, s: string, base: nat)
    requires IsBase(base)
    requires AllDigits(s, base)
    ensures AllDigits(Zeros(k) + s, base)
    ensures ToNat(Zeros(k) + s, base) == ToNat(s, base)
    decreases |s|, k
  {
    var z := Zeros(k) + s;
    assert AllDigits(z, base) by {
      forall i | 0 <= i < |z|
        ensures IsDigit(z[i], base)
      {
        if i < k {
          assert z[i] == '0';
        } else {
          assert z[i] == s[i - k];
        }
      }
    }
    if s == [] {
      if k > 0 {
        assert z[..|z| - 1] == Zeros(k - 1) + [];
        ToNatLeadingZeros(k - 1, [], base);
      }
    } else {
      var init := s[..|s| - 1];
      assert z[..|z| - 1] == Zeros(k) + init;
      assert AllDigits(init, base);
      ToNatLeadingZeros(k, init, base);
    }
  }

  /** Zero-padded rendering still reads back as the number. */
  lemma ToNatPadded(n: nat, width: nat, base: nat)
    requires IsBase(base)
    ensures AllDigits(PadLeft(FromNat(n, base), width), base)
    ensures ToNat(PadLeft(FromNat(n, base), width), base) == n
  {
    var s := FromNat(n, base);
    ToNatFromNat(n, base);
    if |s| < width {
      assert PadLeft(s, width) == Zeros(width - |s|) + s;
      ToNatLeadingZeros(width - |s|, s, base);
    } else {
      assert PadLeft(s, width) == s;
    }
  }

  /** The length of the longest prefix of `s` made of `base` digits. */
  function Span(s: string, base: nat): (r: nat)
    ensures r <= |s|
    ensures AllDigits(s[..r], base)
    ensures r < |s| ==> !IsDigit(s[r], base)
  {
    if s == [] || !IsDigit(s[0], base) then 0
    else
      var rest := Span(s[1..], base);
      assert s[..1 + rest] == [s[0]] + s[1..][..rest];
      1 + rest
  }

  /** The digit run of `a + b` is exactly `a` when `b` does not start with a digit. */
  lemma {:induction false} SpanOfConcat(a: string, b: string, base: nat)
    requires AllDigits(a, base)
    requires b == [] || !IsDigit(b[0], base)
    ensures Span(a + b, base) == |a|
  {
    if a == [] {
      assert a + b == b;
    } else {
      assert (a + b)[0] == a[0];
      assert (a + b)[1..] == a[1..] + b;
      SpanOfConcat(a[1..], b, base);
    }
  }
}

=== FILE: ingest.dfy ===
/**
 The import run: every file found under the import directory passes the
 extension filter, is identified by (MD5 digest, size), and is either
 archived as a new photo (copy into bulk storage, Photos record, album
 link) or, as a duplicate, only linked into the album.
 */
module Ingest {
  import opened Wrappers
  import opened DateTimes
  import opened Metadata
  import opened Naming
  import opened Database

  type byte = b: int | 0 <= b < 256

  /**
   A file found by the directory walk: its name, whether it can be opened
   for reading (an unreadable file or a dangling link cannot), its bytes,
   modification time (already converted to local time) and the tags the
   EXIF decoder returns.
   */
  datatype Candidate = Candidate(name: string, readable: bool, content: seq<byte>, mtime: DateTime, tags: Tags)

  /** A file the filter lets through can be opened; `Photo(...)` opens it at once. */
  predicate Readable(c: Candidate) {
    IsImportable(c.name) ==> c.readable
  }

  /** A file in bulk storage; `shutil.copy2` keeps the modification time. */
  datatype StoredCopy = StoredCopy(content: seq<byte>, mtime: DateTime)

  type Bulk = map<string, StoredCopy>

  datatype State = State(catalog: Catalog, bulk: Bulk)

  /** What ends a run: a refused insert, or a file that cannot be opened. */
  datatype Fault = Db(error: DbError) | Unreadable

  /** An uncaught error ends the run; the copies already made stay in bulk storage. */
  datatype Crash = Crash(fault: Fault, bulk: Bulk)

  /** The record `Photo.get_properties` fills in for a new photo with identity `id`. */
  function PhotoRecord(c: Candidate, id: nat, md5: seq<byte> -> Digest): (r: Record)
    requires c.mtime.Valid()
    ensures r.id == id && r.hash == md5(c.content) && r.size == |c.content|
    ensures r.dateTime == CaptureTime(c.mtime, c.tags)
    ensures r.dateTime.Valid() && NotAfter(r.dateTime, c.mtime)
    ensures r.make == TextTag(c.tags, MakeKey) && r.model == TextTag(c.tags, ModelKey)
    ensures r.software == TextTag(c.tags, SoftwareKey) && r.orientation == TextTag(c.tags, OrientationKey)
    ensures r.width == IntTag(c.tags, WidthKey) && r.height == IntTag(c.tags, HeightKey)
    ensures r.latitude == AngleTag(c.tags, LatitudeKey) && r.longitude == AngleTag(c.tags, LongitudeKey)
    ensures r.altitude == AltitudeTag(c.tags)
    ensures r.name == CanonicalName(r.dateTime, id, Extension(c.name))
    ensures CanonicallyNamed(r) && ParseName(r.name).value.ext == Extension(c.name)
  {
    var dt := CaptureTime(c.mtime, c.tags);
    ExtensionStart(c.name);
    ParseCanonicalName(dt, id, Extension(c.name));
    Record(
      id,
      CanonicalName(dt, id, Extension(c.name)),
      md5(c.content),
      |c.content|,
      dt,
      TextTag(c.tags, MakeKey),
      TextTag(c.tags, ModelKey),
      TextTag(c.tags, SoftwareKey),
      IntTag(c.tags, WidthKey),
      IntTag(c.tags, HeightKey),
      TextTag(c.tags, OrientationKey),
      AngleTag(c.tags, LatitudeKey),
      AngleTag(c.tags, LongitudeKey),
      AltitudeTag(c.tags))
  }

  /**
   Stores a record whose content is not yet in the catalog: the copy goes
   into bulk storage, the record into the Photos table, the link into the
   Albums table. It fails only when the record's identity or name is taken.
   */
  function Archive(st: State, album: string, rec: Record, copy: StoredCopy): (r: Result<State, Crash>)
    requires IsNotDuplicate(st.catalog.photos, rec.hash, rec.size)
    ensures r.Ok? <==> AddToPhotos(st.catalog, rec).Ok?
    ensures r.Ok? ==>
      var link := AlbumLink(album, rec.id);
      && r.value.catalog.photos == st.catalog.photos + [rec]
      && link in r.value.catalog.albums
      && (r.value.catalog.albums == st.catalog.albums || r.value.catalog.albums == st.catalog.albums + [link])
      && r.value.bulk == st.bulk[rec.name := copy]
  {
    var bulk := st.bulk[rec.name := copy];
    match AddToPhotos(st.catalog, rec)
    case Err(e) => Err(Crash(Db(e), bulk))
    case Ok(cat1) =>
      FindPhotoNew(st.catalog.photos, rec);
      match AddToAlbums(cat1, rec.hash, rec.size, album)
      case Err(e) => Err(Crash(Db(e), bulk))
      case Ok(cat2) => Ok(State(cat2, bulk))
  }

  /**
   A new file: allocate the next identity, fill in the record, then archive
   it. The result holds exactly one more record, the one `PhotoRecord`
   describes for the freshly allocated identity.
   */
  function ImportNew(st: State, album: string, c: Candidate, md5: seq<byte> -> Digest): (r: Result<State, Crash>)
    requires c.mtime.Valid()
    requires IsNotDuplicate(st.catalog.photos, md5(c.content), |c.content|)
    ensures r.Ok? ==>
      var rec := PhotoRecord(c, NextPhotoId(st.catalog.photos), md5);
      var link := AlbumLink(album, rec.id);
      && r.value.catalog.photos == st.catalog.photos + [rec]
      && link in r.value.catalog.albums
      && (r.value.catalog.albums == st.catalog.albums || r.value.catalog.albums == st.catalog.albums + [link])
      && r.value.bulk == st.bulk[rec.name := StoredCopy(c.content, c.mtime)]
  {
    var rec := PhotoRecord(c, NextPhotoId(st.catalog.photos), md5);
    Archive(st, album, rec, StoredCopy(c.content, c.mtime))
  }

  /** A duplicate: no record, no copy; only the album link to the existing record. */
  function LinkDuplicate(st: State, album: string, hash: Digest, size: nat): (r: Result<State, Crash>)
    ensures r.Ok? <==> !IsNotDuplicate(st.catalog.photos, hash, size)
    ensures r.Ok? ==> r.value.catalog.photos == st.catalog.photos && r.value.bulk == st.bulk
    ensures r.Ok? ==>
      var link := AlbumLink(album, FindPhoto(st.catalog.photos, hash, size).value);
      && link in r.value.catalog.albums
      && (r.value.catalog.albums == st.catalog.albums
          || (r.value.catalog.albums == st.catalog.albums + [link] && link !in st.catalog.albums))
  {
    match AddToAlbums(st.catalog, hash, size, album)
    case Err(e) => Err(Crash(Db(e), st.bulk))
    case Ok(cat1) => Ok(State(cat1, st.bulk))
  }

  /** One pass of the per-file loop: filter, identify, then import or link. */
  function Step(st: State, album: string, c: Candidate, md5: seq<byte> -> Digest): (r: Result<State, Crash>)
    requires c.mtime.Valid()
    ensures !IsImportable(c.name) ==> r == Ok(st)
    ensures !Readable(c) ==> r == Err(Crash(Unreadable, st.bulk))
  {
    if !IsImportable(c.name) then Ok(st)
    else if !c.readable then Err(Crash(Unreadable, st.bulk))
    else if IsNotDuplicate(st.catalog.photos, md5(c.content), |c.content|) then ImportNew(st, album, c, md5)
    else LinkDuplicate(st, album, md5(c.content), |c.content|)
  }

  /** The per-file loop over the files of the walk, in walk order. */
  function Run(st: State, album: string, files: seq<Candidate>, md5: seq<byte> -> Digest): Result<State, Crash>
    requires forall i :: 0 <= i < |files| ==> files[i].mtime.Valid()
    decreases |files|
  {
    if files == [] then Ok(st)
    else
      match Step(st, album, files[0], md5)
      case Err(crash) => Err(crash)
      case Ok(st1) => Run(st1, album, files[1..], md5)
  }

  /** Every record has its copy in bulk storage, with the record's digest and size. */
  predicate Archived(st: State, md5: seq<byte> -> Digest) {
    forall i :: 0 <= i < |st.catalog.photos| ==>
      var rec := st.catalog.photos[i];
      rec.name in st.bulk && md5(st.bulk[rec.name].content) == rec.hash && |st.bulk[rec.name].content| == rec.size
  }

  predicate ValidState(st: State, md5: seq<byte> -> Digest) {
    Valid(st.catalog) && Archived(st, md5)
  }

  /** Appending a link that was absent, and pointing at a record, keeps the Albums table valid. */
  lemma AlbumsStayValid(cat: Catalog, cat2: Catalog, link: AlbumLink)
    requires Valid(cat)
    requires Ids(cat.photos) <= Ids(cat2.photos) && link.photoId in Ids(cat2.photos)
    requires cat2.albums == cat.albums || (cat2.albums == cat.albums + [link] && link !in cat.albums)
    ensures forall i, j :: 0 <= i < j < |cat2.albums| ==> cat2.albums[i] != cat2.albums[j]
    ensures forall i :: 0 <= i < |cat2.albums| ==> cat2.albums[i].photoId in Ids(cat2.photos)
  {
    if cat2.albums != cat.albums {
      forall i | 0 <= i < |cat2.albums|
        ensures cat2.albums[i].photoId in Ids(cat2.photos)
      {
        if i < |cat.albums| {
          assert cat2.albums[i] == cat.albums[i];
        }
      }
    } else {
      forall i | 0 <= i < |cat2.albums|
        ensures cat2.albums[i].photoId in Ids(cat2.photos)
      {
        assert cat2.albums[i] == cat.albums[i];
      }
    }
  }

  /**
   A record with an identity above all others, content not yet present and
   a name carrying its identity can be appended without breaking the table.
   */
  lemma AppendRecordKeepsPhotosValid(photos: seq<Record>, rec: Record)
    requires PhotosValid(photos)
    requires rec.id >= 1 && rec.dateTime.Valid() && CanonicallyNamed(rec)
    requires forall i :: 0 <= i < |photos| ==> photos[i].id < rec.id
    requires forall i :: 0 <= i < |photos| ==> !(photos[i].hash == rec.hash && photos[i].size == rec.size)
    ensures PhotosValid(photos + [rec])
  {
    AppendedRecordsWellFormed(photos, rec);
    AppendedIdsIncrease(photos, rec);
    AppendedContentUnique(photos, rec);
  }

  lemma AppendedRecordsWellFormed(photos: seq<Record>, rec: Record)
    requires forall i :: 0 <= i < |photos| ==> photos[i].id >= 1 && photos[i].dateTime.Valid() && CanonicallyNamed(photos[i])
    requires rec.id >= 1 && rec.dateTime.Valid() && CanonicallyNamed(rec)
    ensures var p2 := photos + [rec];
      forall i :: 0 <= i < |p2| ==> p2[i].id >= 1 && p2[i].dateTime.Valid() && CanonicallyNamed(p2[i])
  {
    var p2 := photos + [rec];
    forall i | 0 <= i < |p2|
      ensures p2[i].id >= 1 && p2[i].dateTime.Valid() && CanonicallyNamed(p2[i])
    {
      if i < |photos| {
        assert p2[i] == photos[i];
      }
    }
  }

  lemma AppendedIdsIncrease(photos: seq<Record>, rec: Record)
    requires forall i, j :: 0 <= i < j < |photos| ==> photos[i].id < photos[j].id
    requires forall i :: 0 <= i < |photos| ==> photos[i].id < rec.id
    ensures var p2 := photos + [rec];
      forall i, j :: 0 <= i < j < |p2| ==> p2[i].id < p2[j].id
  {
    var p2 := photos + [rec];
    forall i, j | 0 <= i < j < |p2|
      ensures p2[i].id < p2[j].id
    {
      assert p2[i] == photos[i];
      if j < |photos| {
        assert p2[j] == photos[j];
      }
    }
  }

  lemma AppendedContentUnique(photos: seq<Record>, rec: Record)
    requires forall i, j :: 0 <= i < j < |photos| ==> !SameContent(photos[i], photos[j].hash, photos[j].size)
    requires forall i :: 0 <= i < |photos| ==> !(photos[i].hash == rec.hash && photos[i].size == rec.size)
    ensures var p2 := photos + [rec];
      forall i, j :: 0 <= i < j < |p2| ==> !SameContent(p2[i], p2[j].hash, p2[j].size)
  {
    var p2 := photos + [rec];
    forall i, j | 0 <= i < j < |p2|
      ensures !SameContent(p2[i], p2[j].hash, p2[j].size)
    {
      assert p2[i] == photos[i];
      if j < |photos| {
        assert p2[j] == photos[j];
      } else {
        assert p2[j] == rec;
      }
    }
  }

  /** Storing the copy of a new record under its fresh name keeps every record archived. */
  lemma ArchiveAppend(st: State, st2: State, rec: Record, copy: StoredCopy, md5: seq<byte> -> Digest)
    requires Archived(st, md5)
    requires forall i :: 0 <= i < |st.catalog.photos| ==> st.catalog.photos[i].name != rec.name
    requires md5(copy.content) == rec.hash && |copy.content| == rec.size
    requires st2.catalog.photos == st.catalog.photos + [rec]
    requires st2.bulk == st.bulk[rec.name := copy]
    ensures Archived(st2, md5)
  {
    var photos := st.catalog.photos;
    forall i | 0 <= i < |st2.catalog.photos|
      ensures st2.catalog.photos[i].name in st2.bulk
      ensures md5(st2.bulk[st2.catalog.photos[i].name].content) == st2.catalog.photos[i].hash
      ensures |st2.bulk[st2.catalog.photos[i].name].content| == st2.catalog.photos[i].size
    {
      if i < |photos| {
        assert st2.catalog.photos[i] == photos[i];
      }
    }
  }

  /** Importing a new file into a valid state always succeeds. */
  lemma ImportNewSucceeds(st: State, album: string, c: Candidate, md5: seq<byte> -> Digest)
    requires ValidState(st, md5)
    requires c.mtime.Valid()
    requires IsNotDuplicate(st.catalog.photos, md5(c.content), |c.content|)
    ensures ImportNew(st, album, c, md5).Ok?
  {
    FreshRecordInserts(st.catalog, PhotoRecord(c, NextPhotoId(st.catalog.photos), md5));
  }

  /**
   Appending a fresh record (identity above all others, content not yet
   present) and at most its own album link keeps the catalog valid.
   */
  lemma AppendKeepsValid(cat: Catalog, cat2: Catalog, rec: Record, album: string)
    requires Valid(cat)
    requires rec.id >= 1 && rec.dateTime.Valid() && CanonicallyNamed(rec)
    requires forall i :: 0 <= i < |cat.photos| ==> cat.photos[i].id < rec.id
    requires forall i :: 0 <= i < |cat.photos| ==> !(cat.photos[i].hash == rec.hash && cat.photos[i].size == rec.size)
    requires cat2.photos == cat.photos + [rec]
    requires cat2.albums == cat.albums || cat2.albums == cat.albums + [AlbumLink(album, rec.id)]
    ensures Valid(cat2)
  {
    AppendRecordKeepsPhotosValid(cat.photos, rec);
    AppendedIds(cat.photos, rec);
    AlbumsStayValid(cat, cat2, AlbumLink(album, rec.id));
  }

  lemma AppendedIds(photos: seq<Record>, rec: Record)
    requires forall i :: 0 <= i < |photos| ==> photos[i].id < rec.id
    ensures Ids(photos + [rec]) == Ids(photos) + {rec.id}
    ensures rec.id !in Ids(photos)
  {
    assert rec in photos + [rec];
  }

  /** Importing a new file keeps the catalog valid. */
  lemma ImportNewKeepsCatalogValid(st: State, album: string, c: Candidate, md5: seq<byte> -> Digest)
    requires ValidState(st, md5)
    requires c.mtime.Valid()
    requires IsNotDuplicate(st.catalog.photos, md5(c.content), |c.content|)
    requires ImportNew(st, album, c, md5).Ok?
    ensures Valid(ImportNew(st, album, c, md5).value.catalog)
  {
    var rec := PhotoRecord(c, NextPhotoId(st.catalog.photos), md5);
    AppendKeepsValid(st.catalog, ImportNew(st, album, c, md5).value.catalog, rec, album);
  }

  /** Importing a new file keeps every record, the new one included, archived. */
  lemma ImportNewKeepsArchive(st: State, album: string, c: Candidate, md5: seq<byte> -> Digest)
    requires ValidState(st, md5)
    requires c.mtime.Valid()
    requires IsNotDuplicate(st.catalog.photos, md5(c.content), |c.content|)
    requires ImportNew(st, album, c, md5).Ok?
    ensures Archived(ImportNew(st, album, c, md5).value, md5)
  {
    var photos := st.catalog.photos;
    var rec := PhotoRecord(c, NextPhotoId(photos), md5);
    forall i | 0 <= i < |photos|
      ensures photos[i].name != rec.name
    {
      assert CanonicallyNamed(photos[i]);
    }
    ArchiveAppend(st, ImportNew(st, album, c, md5).value, rec, StoredCopy(c.content, c.mtime), md5);
  }

  /** Importing a new file into a valid state succeeds and keeps it valid. */
  lemma ImportNewKeepsValid(st: State, album: string, c: Candidate, md5: seq<byte> -> Digest)
    requires ValidState(st, md5)
    requires c.mtime.Valid()
    requires IsNotDuplicate(st.catalog.photos, md5(c.content), |c.content|)
    ensures ImportNew(st, album, c, md5).Ok?
    ensures ValidState(ImportNew(st, album, c, md5).value, md5)
  {
    ImportNewSucceeds(st, album, c, md5);
    ImportNewKeepsCatalogValid(st, album, c, md5);
    ImportNewKeepsArchive(st, album, c, md5);
  }

  /** Linking a duplicate keeps the catalog valid and cannot fail. */
  lemma LinkDuplicateKeepsValid(st: State, album: string, hash: Digest, size: nat, md5: seq<byte> -> Digest)
    requires ValidState(st, md5)
    requires !IsNotDuplicate(st.catalog.photos, hash, size)
    ensures LinkDuplicate(st, album, hash, size).Ok?
    ensures ValidState(LinkDuplicate(st, album, hash, size).value, md5)
  {
    var id := FindPhoto(st.catalog.photos, hash, size).value;
    var i :| 0 <= i < |st.catalog.photos| && SameContent(st.catalog.photos[i], hash, size)
             && st.catalog.photos[i].id == id;
    assert st.catalog.photos[i] in st.catalog.photos;
    var cat2 := LinkDuplicate(st, album, hash, size).value.catalog;
    AlbumsStayValid(st.catalog, cat2, AlbumLink(album, id));
  }

  /**
   Each pass of the loop keeps the catalog valid and every record archived;
   it aborts exactly when the file cannot be opened.
   */
  lemma StepKeepsValid(st: State, album: string, c: Candidate, md5: seq<byte> -> Digest)
    requires ValidState(st, md5)
    requires c.mtime.Valid()
    ensures Step(st, album, c, md5).Ok? <==> Readable(c)
    ensures Step(st, album, c, md5).Ok? ==> ValidState(Step(st, album, c, md5).value, md5)
  {
    if IsImportable(c.name) && c.readable {
      if IsNotDuplicate(st.catalog.photos, md5(c.content), |c.content|) {
        ImportNewKeepsValid(st, album, c, md5);
      } else {
        LinkDuplicateKeepsValid(st, album, md5(c.content), |c.content|, md5);
      }
    }
  }

  /**
   A whole run from a valid state completes exactly when every file it lets
   through can be opened, and then ends in a valid state.
   */
  lemma {:induction false} RunKeepsValid(st: State, album: string, files: seq<Candidate>, md5: seq<byte> -> Digest)
    requires ValidState(st, md5)
    requires forall i :: 0 <= i < |files| ==> files[i].mtime.Valid()
    ensures Run(st, album, files, md5).Ok? <==> forall i :: 0 <= i < |files| ==> Readable(files[i])
    ensures Run(st, album, files, md5).Ok? ==> ValidState(Run(st, album, files, md5).value, md5)
    decreases |files|
  {
    if files != [] {
      StepKeepsValid(st, album, files[0], md5);
      if Readable(files[0]) {
        var st1 := Step(st, album, files[0], md5).value;
        assert Run(st, album, files, md5) == Run(st1, album, files[1..], md5);
        RunKeepsValid(st1, album, files[1..], md5);
        ReadableTail(files);
      } else {
        assert Run(st, album, files, md5).Err?;
      }
    }
  }

  /** Every file of the walk is readable exactly when the first one and all the rest are. */
  lemma ReadableTail(files: seq<Candidate>)
    requires files != []
    ensures (forall i :: 0 <= i < |files| ==> Readable(files[i]))
      <==> Readable(files[0]) && forall i :: 0 <= i < |files[1..]| ==> Readable(files[1..][i])
  {
    assert forall i :: 0 <= i < |files[1..]| ==> files[1..][i] == files[i + 1];
  }

  /** Identities are exactly 1, 2, 3, ... in table order. */
  predicate DenseIds(photos: seq<Record>) {
    forall i :: 0 <= i < |photos| ==> photos[i].id == i + 1
  }

  /** In a gap-free table the next identity is one past the row count. */
  lemma DenseNextId(photos: seq<Record>)
    requires DenseIds(photos)
    ensures NextPhotoId(photos) == |photos| + 1
  {
    if photos != [] {
      assert photos[|photos| - 1].id == |photos|;
    }
  }

  /** A pass of the loop keeps the identities gap-free. */
  lemma StepKeepsDense(st: State, album: string, c: Candidate, md5: seq<byte> -> Digest)
    requires DenseIds(st.catalog.photos)
    requires c.mtime.Valid()
    requires Step(st, album, c, md5).Ok?
    ensures DenseIds(Step(st, album, c, md5).value.catalog.photos)
  {
    if IsImportable(c.name) && c.readable && IsNotDuplicate(st.catalog.photos, md5(c.content), |c.content|) {
      var photos := st.catalog.photos;
      DenseNextId(photos);
      AppendDense(photos, PhotoRecord(c, NextPhotoId(photos), md5));
    }
  }

  lemma AppendDense(photos: seq<Record>, rec: Record)
    requires DenseIds(photos) && rec.id == |photos| + 1
    ensures DenseIds(photos + [rec])
  {
    var p2 := photos + [rec];
    forall i | 0 <= i < |p2|
      ensures p2[i].id == i + 1
    {
      if i < |photos| {
        assert p2[i] == photos[i];
      }
    }
  }

  /**
   Starting from gap-free identities (an empty catalog in particular), a run
   allocates identities without gaps: the n-th record ever stored has identity n.
   */
  lemma {:induction false} RunKeepsDense(st: State, album: string, files: seq<Candidate>, md5: seq<byte> -> Digest)
    requires DenseIds(st.catalog.photos)
    requires forall i :: 0 <= i < |files| ==> files[i].mtime.Valid()
    requires Run(st, album, files, md5).Ok?
    ensures DenseIds(Run(st, album, files, md5).value.catalog.photos)
    decreases |files|
  {
    if files != [] {
      StepKeepsDense(st, album, files[0], md5);
      RunKeepsDense(Step(st, album, files[0], md5).value, album, files[1..], md5);
    }
  }

  /**
   A file the run has dealt with: it does not pass the filter, or it can be
   opened and a record with its digest and size exists and is linked into
   the album.
   */
  predicate Covered(st: State, album: string, c: Candidate, md5: seq<byte> -> Digest) {
    IsImportable(c.name) ==>
      var found := FindPhoto(st.catalog.photos, md5(c.content), |c.content|);
      c.readable && found.Some? && AlbumLink(album, found.value) in st.catalog.albums
  }

  /** `st2` grew out of `st`: records only appended, links never removed. */
  predicate Extends(st: State, st2: State) {
    && |st.catalog.photos| <= |st2.catalog.photos|
    && st2.catalog.photos[..|st.catalog.photos|] == st.catalog.photos
    && (forall l :: l in st.catalog.albums ==> l in st2.catalog.albums)
  }

  /** A covered file stays covered as the catalog grows. */
  lemma CoveredStaysCovered(st: State, st2: State, album: string, c: Candidate, md5: seq<byte> -> Digest)
    requires Covered(st, album, c, md5) && Extends(st, st2)
    ensures Covered(st2, album, c, md5)
  {
    if IsImportable(c.name) {
      var photos := st.catalog.photos;
      var more := st2.catalog.photos[|photos|..];
      assert st2.catalog.photos == photos + more;
      FindPhotoAppend(photos, more, md5(c.content), |c.content|);
    }
  }

  /** A pass of the loop only grows the catalog, and leaves its file covered. */
  lemma StepCovers(st: State, album: string, c: Candidate, md5: seq<byte> -> Digest)
    requires c.mtime.Valid()
    requires Step(st, album, c, md5).Ok?
    ensures Extends(st, Step(st, album, c, md5).value)
    ensures Covered(Step(st, album, c, md5).value, album, c, md5)
  {
    if IsImportable(c.name) && c.readable && IsNotDuplicate(st.catalog.photos, md5(c.content), |c.content|) {
      var photos := st.catalog.photos;
      var rec := PhotoRecord(c, NextPhotoId(photos), md5);
      FindPhotoNew(photos, rec);
      assert (photos + [rec])[..|photos|] == photos;
    }
  }

  /** A pass over a covered file changes nothing at all. */
  lemma StepOnCovered(st: State, album: string, c: Candidate, md5: seq<byte> -> Digest)
    requires c.mtime.Valid()
    requires Covered(st, album, c, md5)
    ensures Step(st, album, c, md5) == Ok(st)
  {
  }

  lemma ExtendsTransitive(st: State, st1: State, st2: State)
    requires Extends(st, st1) && Extends(st1, st2)
    ensures Extends(st, st2)
  {
    assert st2.catalog.photos[..|st.catalog.photos|] == st2.catalog.photos[..|st1.catalog.photos|][..|st.catalog.photos|];
  }

  /** A completed run only grows the catalog and covers every file it was given. */
  lemma {:induction false} RunCovers(st: State, album: string, files: seq<Candidate>, md5: seq<byte> -> Digest)
    requires forall i :: 0 <= i < |files| ==> files[i].mtime.Valid()
    requires Run(st, album, files, md5).Ok?
    ensures Extends(st, Run(st, album, files, md5).value)
    ensures forall i :: 0 <= i < |files| ==> Covered(Run(st, album, files, md5).value, album, files[i], md5)
    decreases |files|
  {
    if files != [] {
      var st1 := Step(st, album, files[0], md5).value;
      var st2 := Run(st1, album, files[1..], md5).value;
      assert Run(st, album, files, md5).value == st2;
      StepCovers(st, album, files[0], md5);
      RunCovers(st1, album, files[1..], md5);
      CoveredStaysCovered(st1, st2, album, files[0], md5);
      ExtendsTransitive(st, st1, st2);
      forall i | 1 <= i < |files|
        ensures Covered(st2, album, files[i], md5)
      {
        assert files[i] == files[1..][i - 1];
      }
    }
  }

  /** A run over files that are all covered changes nothing. */
  lemma {:induction false} RunOnCovered(st: State, album: string, files: seq<Candidate>, md5: seq<byte> -> Digest)
    requires forall i :: 0 <= i < |files| ==> files[i].mtime.Valid()
    requires forall i :: 0 <= i < |files| ==> Covered(st, album, files[i], md5)
    ensures Run(st, album, files, md5) == Ok(st)
    decreases |files|
  {
    if files != [] {
      StepOnCovered(st, album, files[0], md5);
      assert forall i :: 0 <= i < |files[1..]| ==> files[1..][i] == files[i + 1];
      RunOnCovered(st, album, files[1..], md5);
    }
  }

  /**
   Importing the same directory again right after a completed run adds no
   record, no copy and no link.
   */
  lemma ReimportIsIdempotent(st: State, album: string, files: seq<Candidate>, md5: seq<byte> -> Digest)
    requires forall i :: 0 <= i < |files| ==> files[i].mtime.Valid()
    requires Run(st, album, files, md5).Ok?
    ensures var once := Run(st, album, files, md5).value;
      Run(once, album, files, md5) == Ok(once)
  {
    RunCovers(st, album, files, md5);
    RunOnCovered(Run(st, album, files, md5).value, album, files, md5);
  }

  /** `os.path.basename`: what follows the last '/'. */
  function Basename(path: string): (b: string)
    ensures '/' !in b
    ensures |b| <= |path| && path[|path| - |b|..] == b
    ensures |b| < |path| ==> path[|path| - |b| - 1] == '/'
  {
    if path == [] || path[|path| - 1] == '/' then []
    else Basename(path[..|path| - 1]) + [path[|path| - 1]]
  }

  /** The album a directory is imported into is the directory's own name. */
  lemma {:induction false} BasenameOfJoin(dir: string, name: string)
    requires '/' !in name
    ensures Basename(dir + "/" + name) == name
  {
    var p := dir + "/" + name;
    if name != [] {
      var init := name[..|name| - 1];
      assert name[|name| - 1] in name;
      assert p[..|p| - 1] == dir + "/" + init;
      assert '/' !in init by {
        assert forall i :: 0 <= i < |init| ==> init[i] == name[i];
      }
      BasenameOfJoin(dir, init);
      assert name == init + [name[|name| - 1]];
    }
  }

  /** `str.split('/')`: the pieces between the slashes, at least one. */
  function SplitSlash(s: string): (cs: seq<string>)
    ensures |cs| >= 1
    ensures forall i :: 0 <= i < |cs| ==> '/' !in cs[i]
  {
    if s == [] then [[]]
    else if s[|s| - 1] == '/' then SplitSlash(s[..|s| - 1]) + [[]]
    else
      var cs := SplitSlash(s[..|s| - 1]);
      cs[..|cs| - 1] + [cs[|cs| - 1] + [s[|s| - 1]]]
  }

  /** `'/'.join(cs)`. */
  function JoinSlash(cs: seq<string>): string {
    if |cs| == 0 then []
    else if |cs| == 1 then cs[0]
    else JoinSlash(cs[..|cs| - 1]) + "/" + cs[|cs| - 1]
  }

  /** A trailing slash starts a new, empty piece. */
  lemma SplitSlashSnocSlash(s: string)
    ensures SplitSlash(s + "/") == SplitSlash(s) + [[]]
  {
    assert (s + "/")[..|s|] == s;
  }

  /** Any other trailing character extends the last piece. */
  lemma SplitSlashSnocChar(s: string, ch: char)
    requires ch != '/'
    ensures var cs := SplitSlash(s);
      SplitSlash(s + [ch]) == cs[..|cs| - 1] + [cs[|cs| - 1] + [ch]]
  {
    assert (s + [ch])[..|s|] == s;
  }

  /** Joining one more component puts a slash before it, unless it is the only one. */
  lemma JoinSlashSnoc(cs: seq<string>, x: string)
    ensures JoinSlash(cs + [x]) == if cs == [] then x else JoinSlash(cs) + "/" + x
  {
    assert (cs + [x])[..|cs|] == cs;
  }

  /** Extending the last component extends the joined text. */
  lemma JoinSlashExtendLast(front: seq<string>, last: string, ch: char)
    ensures JoinSlash(front + [last + [ch]]) == JoinSlash(front + [last]) + [ch]
  {
    JoinSlashSnoc(front, last);
    JoinSlashSnoc(front, last + [ch]);
    if front != [] {
      var j := JoinSlash(front);
      assert (j + "/" + last) + [ch] == j + "/" + (last + [ch]);
    }
  }

  /** Splitting at the slashes and joining again gives the text back. */
  lemma {:induction false} JoinSplitSlash(s: string)
    ensures JoinSlash(SplitSlash(s)) == s
    decreases |s|
  {
    if s != [] {
      var init := s[..|s| - 1];
      var ch := s[|s| - 1];
      JoinSplitSlash(init);
      assert s == init + [ch];
      if ch == '/' {
        SplitSlashSnocSlash(init);
        JoinSlashSnoc(SplitSlash(init), []);
      } else {
        SplitSlashSnocChar(init, ch);
        var cs := SplitSlash(init);
        assert cs == cs[..|cs| - 1] + [cs[|cs| - 1]];
        JoinSlashExtendLast(cs[..|cs| - 1], cs[|cs| - 1], ch);
      }
    }
  }

  /** The piece after a last slash is the last component. */
  lemma {:induction false} SplitSlashAppend(a: string, b: string)
    requires '/' !in b
    ensures SplitSlash(a + "/" + b) == SplitSlash(a) + [b]
    decreases |b|
  {
    if b == [] {
      assert a + "/" + b == a + "/";
      SplitSlashSnocSlash(a);
    } else {
      var init := b[..|b| - 1];
      var ch := b[|b| - 1];
      assert b == init + [ch];
      assert '/' !in init by {
        assert forall i :: 0 <= i < |init| ==> init[i] == b[i];
      }
      assert ch in b;
      SplitSlashAppend(a, init);
      assert a + "/" + b == (a + "/" + init) + [ch];
      SplitSlashSnocChar(a + "/" + init, ch);
      var cs := SplitSlash(a) + [init];
      assert cs[..|cs| - 1] == SplitSlash(a);
    }
  }

  /**
   One component of the `os.path.normpath` loop: an empty or `.` component
   is dropped; `..` removes the component before it when there is one that
   is not itself `..`, and is dropped at the root of a `rooted` path; any
   other component is kept.
   */
  function NormStep(acc: seq<string>, c: string, rooted: bool): (r: seq<string>)
    ensures c == [] || c == "." ==> r == acc
    ensures c != [] && c != "." && c != ".." ==> r == acc + [c]
    ensures c == ".." && acc != [] && acc[|acc| - 1] != ".." ==> r == acc[..|acc| - 1]
    ensures c == ".." && acc != [] && acc[|acc| - 1] == ".." ==> r == acc + [c]
    ensures c == ".." && acc == [] ==> r == if rooted then [] else [".."]
  {
    if c == [] || c == "." then acc
    else if c != ".." || (!rooted && acc == []) || (acc != [] && acc[|acc| - 1] == "..") then acc + [c]
    else if acc != [] then acc[..|acc| - 1]
    else acc
  }

  /** The components `os.path.normpath` keeps, in order. */
  function NormComponents(cs: seq<string>, rooted: bool): (r: seq<string>)
    ensures forall i :: 0 <= i < |r| ==> r[i] != [] && r[i] != "."
    ensures (forall i :: 0 <= i < |cs| ==> '/' !in cs[i]) ==> forall i :: 0 <= i < |r| ==> '/' !in r[i]
  {
    if cs == [] then []
    else
      var front := cs[..|cs| - 1];
      var acc := NormComponents(front, rooted);
      assert (forall i :: 0 <= i < |cs| ==> '/' !in cs[i]) ==> forall i :: 0 <= i < |front| ==> '/' !in front[i];
      NormStep(acc, cs[|cs| - 1], rooted)
  }

  lemma NormComponentsSnoc(cs: seq<string>, c: string, rooted: bool)
    ensures NormComponents(cs + [c], rooted) == NormStep(NormComponents(cs, rooted), c, rooted)
  {
    assert (cs + [c])[..|cs|] == cs;
  }

  /**
   `os.path.normpath`: a leading "/" is kept, and so is a leading "//" that
   is not a longer run of slashes; the empty result is ".".
   */
  function NormPath(path: string): (r: string)
    ensures r != []
  {
    if path == [] then "."
    else
      var joined := LeadingSlashes(path) + JoinSlash(NormComponents(SplitSlash(path), Rooted(path)));
      if joined == [] then "." else joined
  }

  /** A path that starts with '/'. */
  predicate Rooted(path: string) {
    path != [] && path[0] == '/'
  }

  /** The slashes `os.path.normpath` keeps at the head of a path. */
  function LeadingSlashes(path: string): (r: string)
    ensures r == "" || r == "/" || r == "//"
    ensures r == "" <==> !Rooted(path)
  {
    if !Rooted(path) then ""
    else if |path| >= 2 && path[1] == '/' && !(|path| >= 3 && path[2] == '/') then "//"
    else "/"
  }

  /** The album an import directory fills: `os.path.basename(os.path.normpath(importPath))`. */
  function AlbumName(importPath: string): string {
    Basename(NormPath(importPath))
  }

  /**
   The album is the last component left by normalisation; when none is left
   it is "" for a path from the root and "." otherwise.
   */
  lemma AlbumNameIsLastComponent(importPath: string)
    ensures var n := NormComponents(SplitSlash(importPath), Rooted(importPath));
      AlbumName(importPath) == if n != [] then n[|n| - 1] else if Rooted(importPath) then "" else "."
  {
    var n := NormComponents(SplitSlash(importPath), Rooted(importPath));
    var slashes := LeadingSlashes(importPath);
    NormPathShape(importPath);
    if n != [] {
      BasenameOfJoinSlash(slashes, n);
    } else if slashes != "" {
      BasenameOfSlashes(slashes);
    } else {
      BasenameOfDot();
    }
  }

  /** What `NormPath` is made of: the kept slashes, then the kept components. */
  lemma NormPathShape(path: string)
    ensures var joined := LeadingSlashes(path) + JoinSlash(NormComponents(SplitSlash(path), Rooted(path)));
      NormPath(path) == if joined == [] then "." else joined
  {
  }

  lemma BasenameOfSlashes(slashes: string)
    requires slashes == "/" || slashes == "//"
    ensures Basename(slashes + JoinSlash([])) == []
  {
    assert slashes + JoinSlash([]) == slashes;
  }

  lemma BasenameOfDot()
    ensures Basename(".") == "."
  {
    BasenameOfPlain(".");
  }

  /** The basename of slash-free components joined after a run of slashes is the last of them. */
  lemma BasenameOfJoinSlash(slashes: string, cs: seq<string>)
    requires slashes == "" || slashes == "/" || slashes == "//"
    requires cs != []
    requires forall i :: 0 <= i < |cs| ==> '/' !in cs[i]
    ensures Basename(slashes + JoinSlash(cs)) == cs[|cs| - 1]
  {
    var front := cs[..|cs| - 1];
    var last := cs[|cs| - 1];
    assert cs == front + [last];
    if front != [] {
      BasenameAfterComponents(slashes, front, last);
    } else if slashes == "" {
      BasenameOfPlain(last);
    } else {
      BasenameAfterSlashes(slashes, last);
    }
  }

  lemma BasenameAfterComponents(pre: string, front: seq<string>, last: string)
    requires front != [] && '/' !in last
    ensures Basename(pre + JoinSlash(front + [last])) == last
  {
    JoinSlashSnoc(front, last);
    var d := pre + JoinSlash(front);
    assert pre + JoinSlash(front + [last]) == d + "/" + last;
    BasenameOfJoin(d, last);
  }

  lemma BasenameAfterSlashes(slashes: string, last: string)
    requires slashes == "/" || slashes == "//"
    requires '/' !in last
    ensures Basename(slashes + JoinSlash([last])) == last
  {
    var d := slashes[..|slashes| - 1];
    assert slashes + JoinSlash([last]) == d + "/" + last;
    BasenameOfJoin(d, last);
  }

  /** A name with no '/' is its own basename. */
  lemma BasenameOfPlain(name: string)
    requires '/' !in name
    ensures Basename(name) == name
  {
  }

  /** A trailing slash does not change the album: `photos/trip/` fills `trip`. */
  lemma AlbumNameTrailingSlash(importPath: string)
    requires importPath != []
    ensures AlbumName(importPath + "/") == AlbumName(importPath)
  {
    var p := importPath + "/";
    var rooted := Rooted(importPath);
    assert Rooted(p) == rooted by {
      assert p[0] == importPath[0];
    }
    SplitSlashSnocSlash(importPath);
    NormComponentsSnoc(SplitSlash(importPath), [], rooted);
    assert NormComponents(SplitSlash(p), rooted) == NormComponents(SplitSlash(importPath), rooted);
    AlbumNameIsLastComponent(importPath);
    AlbumNameIsLastComponent(p);
  }

  /** A trailing `/.` does not change the album. */
  lemma AlbumNameTrailingDot(importPath: string)
    requires importPath != []
    ensures AlbumName(importPath + "/.") == AlbumName(importPath)
  {
    var p := importPath + "/.";
    var rooted := Rooted(importPath);
    assert p == importPath + "/" + ".";
    assert Rooted(p) == rooted by {
      assert p[0] == importPath[0];
    }
    SplitSlashAppend(importPath, ".");
    NormComponentsSnoc(SplitSlash(importPath), ".", rooted);
    assert NormComponents(SplitSlash(p), rooted) == NormComponents(SplitSlash(importPath), rooted);
    AlbumNameIsLastComponent(importPath);
    AlbumNameIsLastComponent(p);
  }

  /** The album of `dir/name` is `name`, for a plain name. */
  lemma AlbumNameOfJoin(dir: string, name: string)
    requires '/' !in name && name != [] && name != "." && name != ".."
    ensures AlbumName(dir + "/" + name) == name
  {
    var p := dir + "/" + name;
    SplitSlashAppend(dir, name);
    NormComponentsSnoc(SplitSlash(dir), name, Rooted(p));
    AlbumNameIsLastComponent(p);
  }

  /** `dir/name/..` fills the album of `dir`: `..` removes the name before it. */
  lemma AlbumNameOfParent(dir: string, name: string)
    requires dir != []
    requires '/' !in name && name != [] && name != "." && name != ".."
    ensures AlbumName(dir + "/" + name + "/..") == AlbumName(dir)
  {
    var q := dir + "/" + name;
    var p := q + "/..";
    var rooted := Rooted(dir);
    assert p == q + "/" + "..";
    assert Rooted(q) == rooted by {
      assert q[0] == dir[0];
    }
    assert Rooted(p) == rooted by {
      assert p[0] == q[0];
    }
    var n := NormComponents(SplitSlash(dir), rooted);
    NormOfJoin(dir, name, rooted);
    NormOfParent(q, n, name, rooted);
    AlbumNameIsLastComponent(dir);
    AlbumNameIsLastComponent(p);
  }

  lemma NormOfJoin(dir: string, name: string, rooted: bool)
    requires '/' !in name && name != [] && name != "." && name != ".."
    ensures NormComponents(SplitSlash(dir + "/" + name), rooted) == NormComponents(SplitSlash(dir), rooted) + [name]
  {
    SplitSlashAppend(dir, name);
    NormComponentsSnoc(SplitSlash(dir), name, rooted);
  }

  lemma NormOfParent(q: string, n: seq<string>, name: string, rooted: bool)
    requires name != ".."
    requires NormComponents(SplitSlash(q), rooted) == n + [name]
    ensures NormComponents(SplitSlash(q + "/" + ".."), rooted) == n
  {
    SplitSlashAppend(q, "..");
    NormComponentsSnoc(SplitSlash(q), "..", rooted);
    assert (n + [name])[..|n|] == n;
  }

  /**
   The import command after argument parsing: the three directory and
   database checks, the opening of the log file under `log/` (an error
   there ends the command before the catalog is opened), then the per-file
   loop into the album named by the normalised import path. Exit status 0 with the committed state, or 1; an error inside the
   loop rolls the catalog back but keeps the copies already made.
   */
  function ImportMain(rootIsDir: bool, dbWritable: bool, importIsDir: bool, logOpens: bool, importPath: string,
                      files: seq<Candidate>, st: State, md5: seq<byte> -> Digest): (r: (int, State))
    requires forall i :: 0 <= i < |files| ==> files[i].mtime.Valid()
    ensures r.0 == 0 || r.0 == 1
    ensures r.0 == 0 <==> rootIsDir && dbWritable && importIsDir && logOpens && Run(st, AlbumName(importPath), files, md5).Ok?
    ensures r.0 == 0 ==> r.1 == Run(st, AlbumName(importPath), files, md5).value
    ensures r.0 == 1 ==> r.1.catalog == st.catalog
    ensures !(rootIsDir && dbWritable && importIsDir && logOpens) ==> r.1 == st
  {
    if !rootIsDir || !dbWritable || !importIsDir || !logOpens then (1, st)
    else
      match Run(st, AlbumName(importPath), files, md5)
      case Ok(st1) => (0, st1)
      case Err(crash) => (1, State(st.catalog, crash.bulk))
  }

  /**
   On a valid catalog whose directories and log file check out, the import
   command exits 0 exactly when every file the filter lets through can be
   opened, and then leaves a valid state; otherwise the catalog is as before.
   */
  lemma ImportMainSucceeds(importPath: string, files: seq<Candidate>, st: State, md5: seq<byte> -> Digest)
    requires ValidState(st, md5)
    requires forall i :: 0 <= i < |files| ==> files[i].mtime.Valid()
    ensures var r := ImportMain(true, true, true, true, importPath, files, st, md5);
      r.0 == 0 <==> forall i :: 0 <= i < |files| ==> Readable(files[i])
    ensures var r := ImportMain(true, true, true, true, importPath, files, st, md5);
      r.0 == 0 ==> ValidState(r.1, md5)
    ensures var r := ImportMain(true, true, true, true, importPath, files, st, md5);
      r.0 != 0 ==> r.1.catalog == st.catalog
  {
    RunKeepsValid(st, AlbumName(importPath), files, md5);
  }
}

=== FILE: links.dfy ===
/**
 The link command: a projection of the catalog into a directory tree of
 symbolic links, `sort/by_album/<album>/<photo>` or `sort/by_date/<date>/<photo>`,
 each holding the text `os.path.join(rootPath, 'bulk', <photo>)`, which
 leads to `bulk/<photo>` only when the root path is absolute. A directory
 is made only when it does not exist and a link only when its path does
 not exist, so a completed projection run again makes nothing.
 */
module Links {
  import opened Wrappers
  import opened DateTimes
  import opened Database

  /** An absolute path, as its components below the filesystem root. */
  type Path = seq<string>

  /**
   The text a symbolic link holds: an absolute path, or a path relative to
   the directory that contains the link.
   */
  datatype LinkTarget = Absolute(comps: Path) | Relative(comps: Path)

  datatype Entry = Dir | File | Symlink(target: LinkTarget)

  /** The filesystem: what sits at each path. The root `[]` is a directory. */
  type FS = map<Path, Entry>

  /** `FileExistsError`, and `FileNotFoundError`/`NotADirectoryError` for a missing parent. */
  datatype FsError = FileExists | NoParent

  /** An uncaught error ends the command; what was made before it stays. */
  datatype Failure = Failure(error: FsError, fs: FS)

  /** Linux follows at most 40 symbolic links while resolving one path (MAXSYMLINKS). */
  const MaxSymlinks: nat := 40

  function Parent(p: Path): Path {
    if p == [] then [] else p[..|p| - 1]
  }

  /** Where a link at `link` holding `t` leads. */
  function Resolve(link: Path, t: LinkTarget): Path {
    match t
    case Absolute(comps) => comps
    case Relative(comps) => Parent(link) + comps
  }

  /** Something is at `p`, following at most `hops` symbolic links to reach it. */
  predicate Follow(fs: FS, p: Path, hops: nat)
    decreases hops
  {
    p in fs && (fs[p].Symlink? ==> hops > 0 && Follow(fs, Resolve(p, fs[p].target), hops - 1))
  }

  /** `os.path.exists`: false for a dangling link and for a loop of links. */
  predicate PathExists(fs: FS, p: Path) {
    Follow(fs, p, MaxSymlinks)
  }

  /** `fs2` keeps every entry of `fs` as it was and possibly adds more. */
  predicate Grows(fs: FS, fs2: FS) {
    forall q :: q in fs ==> q in fs2 && fs2[q] == fs[q]
  }

  /** What exists stays existing while the tree only grows. */
  lemma {:induction false} FollowGrows(fs: FS, fs2: FS, p: Path, hops: nat)
    requires Grows(fs, fs2) && Follow(fs, p, hops)
    ensures Follow(fs2, p, hops)
    decreases hops
  {
    if fs[p].Symlink? {
      FollowGrows(fs, fs2, Resolve(p, fs[p].target), hops - 1);
    }
  }

  /**
   `os.mkdir`: refused when anything, a dangling link included, is at `p`,
   or when the parent is not a directory.
   */
  function Mkdir(fs: FS, p: Path): (r: Result<FS, Failure>)
    ensures r.Ok? <==> p !in fs && p != [] && Parent(p) in fs && fs[Parent(p)] == Dir
    ensures r.Ok? ==> r.value == fs[p := Dir]
    ensures r.Err? ==> r.error.fs == fs
  {
    if p in fs then Err(Failure(FileExists, fs))
    else if p == [] || Parent(p) !in fs || fs[Parent(p)] != Dir then Err(Failure(NoParent, fs))
    else Ok(fs[p := Dir])
  }

  /** `os.symlink(target, p)`: the same refusals as `Mkdir`. */
  function MakeSymlink(fs: FS, target: LinkTarget, p: Path): (r: Result<FS, Failure>)
    ensures r.Ok? <==> p !in fs && p != [] && Parent(p) in fs && fs[Parent(p)] == Dir
    ensures r.Ok? ==> r.value == fs[p := Symlink(target)]
    ensures r.Err? ==> r.error.fs == fs
  {
    if p in fs then Err(Failure(FileExists, fs))
    else if p == [] || Parent(p) !in fs || fs[Parent(p)] != Dir then Err(Failure(NoParent, fs))
    else Ok(fs[p := Symlink(target)])
  }

  /** `if not os.path.exists(p): os.mkdir(p)`. */
  function EnsureDir(fs: FS, p: Path): (r: Result<FS, Failure>)
    ensures r.Ok? ==> Grows(fs, r.value) && PathExists(r.value, p)
    ensures r.Ok? ==> r.value == fs || (p !in fs && r.value == fs[p := Dir])
    ensures PathExists(fs, p) ==> r == Ok(fs)
    ensures r.Err? ==> r.error.fs == fs
  {
    if PathExists(fs, p) then Ok(fs) else Mkdir(fs, p)
  }

  /** One row of a query result: a photo's archive name and the directory it is sorted into. */
  datatype Row = Row(photo: string, dir: string)

  /** A name that is one real component: not empty, `.` or `..`. */
  predicate PlainName(name: string) {
    name != "" && name != "." && name != ".."
  }

  /**
   The path `os.path.join(p, name)` names: an empty name or `.` stays at
   `p`, `..` is the parent of `p`, any other name is a component below it.
   */
  function Child(p: Path, name: string): (r: Path)
    ensures PlainName(name) ==> r == p + [name]
    ensures name == "" || name == "." ==> r == p
    ensures name == ".." ==> r == Parent(p)
  {
    if name == "" || name == "." then p
    else if name == ".." then Parent(p)
    else p + [name]
  }

  /** The directory `row` is sorted into under `base`. */
  function RowDir(base: Path, row: Row): Path {
    Child(base, row.dir)
  }

  /** Where the link for `row` goes under `base`. */
  function LinkPath(base: Path, row: Row): Path {
    RowDir(base, row) + [row.photo]
  }

  /**
   One pass of a projection loop: make `base/<dir>` unless it exists, then
   link `base/<dir>/<photo>` to the photo's bulk copy unless that path exists.
   */
  function LinkRow(fs: FS, base: Path, row: Row, target: string -> LinkTarget): (r: Result<FS, Failure>)
    ensures r.Ok? ==> Grows(fs, r.value)
    ensures r.Ok? ==> PathExists(r.value, RowDir(base, row)) && LinkPath(base, row) in r.value
    ensures r.Ok? && LinkPath(base, row) !in fs ==> r.value[LinkPath(base, row)] == Symlink(target(row.photo))
    ensures r.Ok? ==> forall q :: q in r.value && q !in fs ==> q == RowDir(base, row) || q == LinkPath(base, row)
    ensures r.Err? ==> Grows(fs, r.error.fs)
  {
    var dir := RowDir(base, row);
    var fs1 :- EnsureDir(fs, dir);
    var link := LinkPath(base, row);
    assert Parent(link) == dir;
    if PathExists(fs1, link) then Ok(fs1)
    else
      var r := MakeSymlink(fs1, target(row.photo), link);
      if r.Ok? then
        FollowGrows(fs1, r.value, dir, MaxSymlinks);
        r
      else r
  }

  /** The projection loop over the rows of the query, in the order they come. */
  function LinkRows(fs: FS, base: Path, rows: seq<Row>, target: string -> LinkTarget): (r: Result<FS, Failure>)
    ensures r.Ok? ==> Grows(fs, r.value)
    ensures r.Err? ==> Grows(fs, r.error.fs)
    decreases |rows|
  {
    if rows == [] then Ok(fs)
    else
      match LinkRow(fs, base, rows[0], target)
      case Err(f) => Err(f)
      case Ok(fs1) =>
        var r := LinkRows(fs1, base, rows[1..], target);
        GrowsAfter(fs, fs1, r);
        r
  }

  lemma GrowsAfter(fs: FS, fs1: FS, r: Result<FS, Failure>)
    requires Grows(fs, fs1)
    requires r.Ok? ==> Grows(fs1, r.value)
    requires r.Err? ==> Grows(fs1, r.error.fs)
    ensures r.Ok? ==> Grows(fs, r.value)
    ensures r.Err? ==> Grows(fs, r.error.fs)
  {
  }

  /** What a row's pass may add: its directory, or its link holding the photo's target. */
  predicate MadeFor(fs: FS, q: Path, base: Path, row: Row, target: string -> LinkTarget) {
    q == RowDir(base, row) || (q == LinkPath(base, row) && q in fs && fs[q] == Symlink(target(row.photo)))
  }

  /**
   After a completed loop every row has its directory and an entry at its
   link path, and every entry the loop added is some row's directory or
   some row's link holding that row's target.
   */
  lemma {:induction false} LinkRowsPlace(fs: FS, base: Path, rows: seq<Row>, target: string -> LinkTarget)
    requires LinkRows(fs, base, rows, target).Ok?
    ensures var fs2 := LinkRows(fs, base, rows, target).value;
      forall i :: 0 <= i < |rows| ==> PathExists(fs2, RowDir(base, rows[i])) && LinkPath(base, rows[i]) in fs2
    ensures var fs2 := LinkRows(fs, base, rows, target).value;
      forall q :: q in fs2 && q !in fs ==> exists i :: 0 <= i < |rows| && MadeFor(fs2, q, base, rows[i], target)
    decreases |rows|
  {
    if rows != [] {
      var fs1 := LinkRow(fs, base, rows[0], target).value;
      var fs2 := LinkRows(fs1, base, rows[1..], target).value;
      assert LinkRows(fs, base, rows, target).value == fs2;
      LinkRowsPlace(fs1, base, rows[1..], target);
      FollowGrows(fs1, fs2, RowDir(base, rows[0]), MaxSymlinks);
      forall i | 0 <= i < |rows|
        ensures PathExists(fs2, RowDir(base, rows[i])) && LinkPath(base, rows[i]) in fs2
      {
        if i > 0 {
          assert rows[i] == rows[1..][i - 1];
        }
      }
      forall q | q in fs2 && q !in fs
        ensures exists i :: 0 <= i < |rows| && MadeFor(fs2, q, base, rows[i], target)
      {
        if q in fs1 {
          assert MadeFor(fs2, q, base, rows[0], target);
        } else {
          var k :| 0 <= k < |rows[1..]| && MadeFor(fs2, q, base, rows[1..][k], target);
          assert rows[1..][k] == rows[k + 1];
        }
      }
    }
  }

  /** A whole projection: make `base` unless it exists, then link every row. */
  function Project(fs: FS, base: Path, rows: seq<Row>, target: string -> LinkTarget): (r: Result<FS, Failure>)
    ensures r.Ok? ==> Grows(fs, r.value) && PathExists(r.value, base)
    ensures r.Err? ==> Grows(fs, r.error.fs)
  {
    var fs1 :- EnsureDir(fs, base);
    var r := LinkRows(fs1, base, rows, target);
    GrowsAfter(fs, fs1, r);
    if r.Ok? then
      FollowGrows(fs1, r.value, base, MaxSymlinks);
      r
    else r
  }

  /** `LinkRowsPlace` for a whole projection, whose only other addition is `base` itself. */
  lemma ProjectPlace(fs: FS, base: Path, rows: seq<Row>, target: string -> LinkTarget)
    requires Project(fs, base, rows, target).Ok?
    ensures var fs2 := Project(fs, base, rows, target).value;
      forall i :: 0 <= i < |rows| ==> PathExists(fs2, RowDir(base, rows[i])) && LinkPath(base, rows[i]) in fs2
    ensures var fs2 := Project(fs, base, rows, target).value;
      forall q :: q in fs2 && q !in fs && q != base ==> exists i :: 0 <= i < |rows| && MadeFor(fs2, q, base, rows[i], target)
  {
    var fs1 := EnsureDir(fs, base).value;
    LinkRowsPlace(fs1, base, rows, target);
  }

  /** The row's directory and link both exist. */
  predicate Done(fs: FS, base: Path, row: Row) {
    PathExists(fs, RowDir(base, row)) && PathExists(fs, LinkPath(base, row))
  }

  /**
   The row's target, read from where its link goes, leads to something that
   exists within the hops left after following the link itself.
   */
  predicate Reaches(fs: FS, base: Path, row: Row, target: string -> LinkTarget) {
    Follow(fs, Resolve(LinkPath(base, row), target(row.photo)), MaxSymlinks - 1)
  }

  lemma DoneGrows(fs: FS, fs2: FS, base: Path, row: Row)
    requires Done(fs, base, row) && Grows(fs, fs2)
    ensures Done(fs2, base, row)
  {
    FollowGrows(fs, fs2, RowDir(base, row), MaxSymlinks);
    FollowGrows(fs, fs2, LinkPath(base, row), MaxSymlinks);
  }

  /** A pass over a row whose directory and link exist changes nothing. */
  lemma LinkRowOnDone(fs: FS, base: Path, row: Row, target: string -> LinkTarget)
    requires Done(fs, base, row)
    ensures LinkRow(fs, base, row, target) == Ok(fs)
  {
  }

  /** A pass over a row whose target leads somewhere leaves the row done. */
  lemma LinkRowMakesDone(fs: FS, base: Path, row: Row, target: string -> LinkTarget)
    requires Reaches(fs, base, row, target)
    requires LinkRow(fs, base, row, target).Ok?
    ensures Done(LinkRow(fs, base, row, target).value, base, row)
  {
    var fs2 := LinkRow(fs, base, row, target).value;
    var link := LinkPath(base, row);
    FollowGrows(fs, fs2, Resolve(link, target(row.photo)), MaxSymlinks - 1);
    if link !in fs {
      assert fs2[link] == Symlink(target(row.photo));
    } else {
      var fs1 := EnsureDir(fs, RowDir(base, row)).value;
      assert PathExists(fs1, link);
      FollowGrows(fs1, fs2, link, MaxSymlinks);
    }
  }

  lemma ReachesGrows(fs: FS, fs2: FS, base: Path, rows: seq<Row>, target: string -> LinkTarget)
    requires Grows(fs, fs2)
    requires forall i :: 0 <= i < |rows| ==> Reaches(fs, base, rows[i], target)
    ensures forall i :: 0 <= i < |rows| ==> Reaches(fs2, base, rows[i], target)
  {
    forall i | 0 <= i < |rows|
      ensures Reaches(fs2, base, rows[i], target)
    {
      FollowGrows(fs, fs2, Resolve(LinkPath(base, rows[i]), target(rows[i].photo)), MaxSymlinks - 1);
    }
  }

  /** After a completed loop every row is done, provided every target leads somewhere. */
  lemma {:induction false} LinkRowsMakeDone(fs: FS, base: Path, rows: seq<Row>, target: string -> LinkTarget)
    requires forall i :: 0 <= i < |rows| ==> Reaches(fs, base, rows[i], target)
    requires LinkRows(fs, base, rows, target).Ok?
    ensures forall i :: 0 <= i < |rows| ==> Done(LinkRows(fs, base, rows, target).value, base, rows[i])
    decreases |rows|
  {
    if rows != [] {
      var fs1 := LinkRow(fs, base, rows[0], target).value;
      var fs2 := LinkRows(fs1, base, rows[1..], target).value;
      assert LinkRows(fs, base, rows, target).value == fs2;
      LinkRowMakesDone(fs, base, rows[0], target);
      ReachesGrows(fs, fs1, base, rows[1..], target);
      LinkRowsMakeDone(fs1, base, rows[1..], target);
      DoneGrows(fs1, fs2, base, rows[0]);
      forall i | 0 <= i < |rows|
        ensures Done(fs2, base, rows[i])
      {
        if i > 0 {
          assert rows[i] == rows[1..][i - 1];
        }
      }
    }
  }

  /** A loop over rows that are all done changes nothing. */
  lemma {:induction false} LinkRowsOnDone(fs: FS, base: Path, rows: seq<Row>, target: string -> LinkTarget)
    requires forall i :: 0 <= i < |rows| ==> Done(fs, base, rows[i])
    ensures LinkRows(fs, base, rows, target) == Ok(fs)
    decreases |rows|
  {
    if rows != [] {
      LinkRowOnDone(fs, base, rows[0], target);
      assert forall i :: 0 <= i < |rows[1..]| ==> rows[1..][i] == rows[i + 1];
      LinkRowsOnDone(fs, base, rows[1..], target);
    }
  }

  /**
   A completed projection whose targets all lead somewhere, run again on
   the tree it produced, makes no directory and no link.
   */
  lemma ProjectIdempotent(fs: FS, base: Path, rows: seq<Row>, target: string -> LinkTarget)
    requires forall i :: 0 <= i < |rows| ==> Reaches(fs, base, rows[i], target)
    requires Project(fs, base, rows, target).Ok?
    ensures var once := Project(fs, base, rows, target).value;
      Project(once, base, rows, target) == Ok(once)
  {
    var fs1 := EnsureDir(fs, base).value;
    var once := Project(fs, base, rows, target).value;
    ReachesGrows(fs, fs1, base, rows, target);
    LinkRowsMakeDone(fs1, base, rows, target);
    LinkRowsOnDone(once, base, rows, target);
  }

  /** The row's directory exists and something, perhaps a dangling link, is at its link path. */
  predicate Placed(fs: FS, base: Path, row: Row) {
    PathExists(fs, RowDir(base, row)) && LinkPath(base, row) in fs
  }

  /**
   A pass over a placed row makes nothing: it skips the row, or `os.symlink`
   refuses the occupied path.
   */
  lemma LinkRowOnPlaced(fs: FS, base: Path, row: Row, target: string -> LinkTarget)
    requires Placed(fs, base, row)
    ensures var r := LinkRow(fs, base, row, target);
      r == Ok(fs) || (r.Err? && r.error.fs == fs)
  {
    assert EnsureDir(fs, RowDir(base, row)) == Ok(fs);
  }

  /** A loop over placed rows makes nothing, whether or not it completes. */
  lemma {:induction false} LinkRowsOnPlaced(fs: FS, base: Path, rows: seq<Row>, target: string -> LinkTarget)
    requires forall i :: 0 <= i < |rows| ==> Placed(fs, base, rows[i])
    ensures var r := LinkRows(fs, base, rows, target);
      r == Ok(fs) || (r.Err? && r.error.fs == fs)
    decreases |rows|
  {
    if rows != [] {
      LinkRowOnPlaced(fs, base, rows[0], target);
      if LinkRow(fs, base, rows[0], target).Ok? {
        assert forall i :: 0 <= i < |rows[1..]| ==> rows[1..][i] == rows[i + 1];
        LinkRowsOnPlaced(fs, base, rows[1..], target);
      }
    }
  }

  /**
   Whatever the link text, a completed projection run again on the tree it
   produced makes no directory and no link: it completes unchanged, or an
   `os.symlink` on a dangling link fails before anything is made.
   */
  lemma ProjectRerunMakesNothing(fs: FS, base: Path, rows: seq<Row>, target: string -> LinkTarget)
    requires Project(fs, base, rows, target).Ok?
    ensures var once := Project(fs, base, rows, target).value;
      var r := Project(once, base, rows, target);
      r == Ok(once) || (r.Err? && r.error.fs == once)
  {
    var once := Project(fs, base, rows, target).value;
    ProjectPlace(fs, base, rows, target);
    assert EnsureDir(once, base) == Ok(once);
    forall i | 0 <= i < |rows|
      ensures Placed(once, base, rows[i])
    {
    }
    LinkRowsOnPlaced(once, base, rows, target);
  }

  /** `str.find`: the first index of `c` in `s`, or -1. */
  function Find(s: string, c: char): (r: int)
    ensures -1 <= r < |s|
    ensures r >= 0 ==> s[r] == c
    ensures forall i :: 0 <= i < |s| && (r < 0 || i < r) ==> s[i] != c
  {
    if s == [] then -1
    else if s[0] == c then 0
    else
      var k := Find(s[1..], c);
      if k < 0 then -1 else k + 1
  }

  /**
   `date[0:date.find(' ')]`: the text before the first space. Without a
   space `find` gives -1 and the slice drops the last character instead.
   */
  function DateKey(s: string): (r: string)
    ensures ' ' in s ==> |r| < |s| && s[..|r|] == r && s[|r|] == ' ' && ' ' !in r
    ensures ' ' !in s && s != [] ==> r == s[..|s| - 1]
    ensures s == [] ==> r == []
  {
    var k := Find(s, ' ');
    if k >= 0 then s[..k]
    else if s == [] then []
    else s[..|s| - 1]
  }

  /** For a stored timestamp the key is exactly its `YYYY-MM-DD` date. */
  lemma DateKeyOfStored(dt: DateTime)
    requires dt.Valid()
    ensures DateKey(IsoFormat(dt)) == IsoDate(dt)
  {
    IsoFormatShape(dt);
    var s := IsoFormat(dt);
    assert s[10] == ' ';
  }

  /** The directory a photo is sorted into: the key of its stored date text. */
  function StoredDateKey(dt: DateTime): (k: string)
    requires dt.Valid()
    ensures k == IsoDate(dt)
  {
    DateKeyOfStored(dt);
    DateKey(IsoFormat(dt))
  }

  /** A catalog's date text never triggers the no-space quirk. */
  lemma StoredTextHasSpace(dt: DateTime)
    requires dt.Valid()
    ensures ' ' in IsoFormat(dt)
  {
    IsoFormatShape(dt);
    assert IsoFormat(dt)[10] == ' ';
  }

  /** The rows the join yields for one Albums link: every photo with the link's identity. */
  function RowsFor(photos: seq<Record>, link: AlbumLink): (r: seq<Row>)
    ensures forall row :: row in r <==>
      exists j :: 0 <= j < |photos| && photos[j].id == link.photoId && row == Row(photos[j].name, link.album)
  {
    if photos == [] then []
    else
      var rest := RowsFor(photos[1..], link);
      assert forall j :: 1 <= j < |photos| ==> photos[j] == photos[1..][j - 1];
      if photos[0].id == link.photoId then [Row(photos[0].name, link.album)] + rest else rest
  }

  /**
   `SELECT Photos.Name, Albums.Name FROM Photos INNER JOIN Albums ON
   Photos.Id = Albums.PhotoId`: one row per matching (link, photo) pair.
   */
  function AlbumRows(photos: seq<Record>, albums: seq<AlbumLink>): (r: seq<Row>)
    ensures forall row :: row in r <==>
      exists i, j :: 0 <= i < |albums| && 0 <= j < |photos| && photos[j].id == albums[i].photoId
                     && row == Row(photos[j].name, albums[i].album)
  {
    if albums == [] then []
    else
      var rest := AlbumRows(photos, albums[1..]);
      assert forall i :: 1 <= i < |albums| ==> albums[i] == albums[1..][i - 1];
      RowsFor(photos, albums[0]) + rest
  }

  /** `SELECT Photos.Name, Photos.DateTime FROM Photos`, each date cut down to its key. */
  function DateRows(photos: seq<Record>): (r: seq<Row>)
    requires forall i :: 0 <= i < |photos| ==> photos[i].dateTime.Valid()
    ensures |r| == |photos|
    ensures forall i :: 0 <= i < |photos| ==> r[i].photo == photos[i].name
    ensures forall i :: 0 <= i < |photos| ==> r[i].dir == IsoDate(photos[i].dateTime)
  {
    seq(|photos|, i requires 0 <= i < |photos| => Row(photos[i].name, StoredDateKey(photos[i].dateTime)))
  }

  /** The `--rootPath` after `os.path.normpath`: absolute, or relative to the working directory. */
  datatype RootPath = RootPath(absolute: bool, comps: Path)

  /** Where the root is, seen from the filesystem root. */
  function AbsRoot(root: RootPath, cwd: Path): Path {
    if root.absolute then root.comps else cwd + root.comps
  }

  /**
   The link text as the command writes it, `os.path.join(rootPath, 'bulk',
   photo)`: relative whenever the root path was given relative.
   */
  function BulkLinkAsWritten(root: RootPath, photo: string): LinkTarget {
    if root.absolute then Absolute(root.comps + ["bulk", photo]) else Relative(root.comps + ["bulk", photo])
  }

  /** The link text that leads to the bulk copy from anywhere: its absolute path. */
  function BulkLink(root: RootPath, cwd: Path, photo: string): (t: LinkTarget)
    ensures forall link :: Resolve(link, t) == AbsRoot(root, cwd) + ["bulk", photo]
  {
    Absolute(AbsRoot(root, cwd) + ["bulk", photo])
  }

  /** With an absolute root the written link text is already the corrected one. */
  lemma AsWrittenAgreesOnAbsoluteRoot(root: RootPath, cwd: Path, photo: string)
    requires root.absolute
    ensures BulkLinkAsWritten(root, photo) == BulkLink(root, cwd, photo)
  {
  }

  /** The criteria the command accepts. */
  predicate IsCriterion(crit: string) {
    crit == "date" || crit == "album"
  }

  function SortBase(root: RootPath, cwd: Path, crit: string): Path {
    AbsRoot(root, cwd) + ["sort", if crit == "album" then "by_album" else "by_date"]
  }

  function RowsBy(crit: string, cat: Catalog): seq<Row>
    requires forall i :: 0 <= i < |cat.photos| ==> cat.photos[i].dateTime.Valid()
  {
    if crit == "album" then AlbumRows(cat.photos, cat.albums) else DateRows(cat.photos)
  }

  /**
   The link command after argument parsing, with the link text chosen by
   `target`: the root and database checks, the criterion check, the opening
   of the log file under `log/`, then the projection. Exit status 0, or 1
   with whatever was made before the error.
   */
  function LinkCommand(crit: string, rootIsDir: bool, dbReadable: bool, logOpens: bool, fs: FS, root: RootPath, cwd: Path,
                       cat: Catalog, target: string -> LinkTarget): (r: (int, FS))
    requires forall i :: 0 <= i < |cat.photos| ==> cat.photos[i].dateTime.Valid()
    ensures r.0 == 0 || r.0 == 1
    ensures !rootIsDir || !dbReadable || !IsCriterion(crit) || !logOpens ==> r == (1, fs)
    ensures Grows(fs, r.1)
    ensures r.0 == 0 ==> PathExists(r.1, SortBase(root, cwd, crit))
  {
    if !rootIsDir || !dbReadable || !IsCriterion(crit) || !logOpens then (1, fs)
    else
      match Project(fs, SortBase(root, cwd, crit), RowsBy(crit, cat), target)
      case Ok(fs1) => (0, fs1)
      case Err(f) => (1, f.fs)
  }

  /** The link command as the source writes its link text. */
  function LinkMainAsWritten(crit: string, rootIsDir: bool, dbReadable: bool, logOpens: bool, fs: FS, root: RootPath, cwd: Path,
                             cat: Catalog): (r: (int, FS))
    requires forall i :: 0 <= i < |cat.photos| ==> cat.photos[i].dateTime.Valid()
    ensures !rootIsDir || !dbReadable || !IsCriterion(crit) || !logOpens ==> r == (1, fs)
    ensures Grows(fs, r.1)
  {
    LinkCommand(crit, rootIsDir, dbReadable, logOpens, fs, root, cwd, cat, p => BulkLinkAsWritten(root, p))
  }

  /** The link command with absolute link text. */
  function LinkMain(crit: string, rootIsDir: bool, dbReadable: bool, logOpens: bool, fs: FS, root: RootPath, cwd: Path,
                    cat: Catalog): (r: (int, FS))
    requires forall i :: 0 <= i < |cat.photos| ==> cat.photos[i].dateTime.Valid()
    ensures !rootIsDir || !dbReadable || !IsCriterion(crit) || !logOpens ==> r == (1, fs)
    ensures Grows(fs, r.1)
  {
    LinkCommand(crit, rootIsDir, dbReadable, logOpens, fs, root, cwd, cat, p => BulkLink(root, cwd, p))
  }

  /** The row's photo is one of the catalogued photos. */
  predicate NamesPhoto(row: Row, photos: seq<Record>) {
    exists j :: 0 <= j < |photos| && row.photo == photos[j].name
  }

  /** Every row of the query names a photo of the catalog. */
  lemma RowsNamePhotos(crit: string, cat: Catalog)
    requires forall i :: 0 <= i < |cat.photos| ==> cat.photos[i].dateTime.Valid()
    ensures forall i :: 0 <= i < |RowsBy(crit, cat)| ==> NamesPhoto(RowsBy(crit, cat)[i], cat.photos)
  {
    var rows := RowsBy(crit, cat);
    forall i | 0 <= i < |rows|
      ensures NamesPhoto(rows[i], cat.photos)
    {
      if crit != "album" {
        assert rows[i].photo == cat.photos[i].name;
      } else {
        assert rows[i] in AlbumRows(cat.photos, cat.albums);
      }
    }
  }

  /** Every catalogued photo has its bulk copy, a file, under the root. */
  predicate BulkCopies(fs: FS, root: RootPath, cwd: Path, cat: Catalog) {
    forall j :: 0 <= j < |cat.photos| ==>
      var copy := AbsRoot(root, cwd) + ["bulk", cat.photos[j].name]; copy in fs && fs[copy] == File
  }

  /** The link text for photo `p` leads to `bulk/p` under the root, wherever the link sits. */
  ghost predicate LeadsToBulk(root: RootPath, cwd: Path, target: string -> LinkTarget) {
    forall p, link :: Resolve(link, target(p)) == AbsRoot(root, cwd) + ["bulk", p]
  }

  /** The corrected link text leads to the bulk copy. */
  lemma BulkLinkLeads(root: RootPath, cwd: Path)
    ensures LeadsToBulk(root, cwd, p => BulkLink(root, cwd, p))
  {
  }

  /** With an absolute root, the link text as written leads to the bulk copy too. */
  lemma AsWrittenLeadsOnAbsoluteRoot(root: RootPath, cwd: Path)
    requires root.absolute
    ensures LeadsToBulk(root, cwd, p => BulkLinkAsWritten(root, p))
  {
    forall p, link
      ensures Resolve(link, BulkLinkAsWritten(root, p)) == AbsRoot(root, cwd) + ["bulk", p]
    {
      AsWrittenAgreesOnAbsoluteRoot(root, cwd, p);
    }
  }

  /**
   With link text that leads to the bulk copies, and every copy in place, a
   successful link command run again exits 0 and makes nothing.
   */
  lemma LinkCommandIdempotent(crit: string, fs: FS, root: RootPath, cwd: Path, cat: Catalog,
                              target: string -> LinkTarget)
    requires forall i :: 0 <= i < |cat.photos| ==> cat.photos[i].dateTime.Valid()
    requires BulkCopies(fs, root, cwd, cat)
    requires LeadsToBulk(root, cwd, target)
    requires LinkCommand(crit, true, true, true, fs, root, cwd, cat, target).0 == 0
    ensures var once := LinkCommand(crit, true, true, true, fs, root, cwd, cat, target).1;
      LinkCommand(crit, true, true, true, once, root, cwd, cat, target) == (0, once)
  {
    var rows := RowsBy(crit, cat);
    var base := SortBase(root, cwd, crit);
    RowsNamePhotos(crit, cat);
    forall i | 0 <= i < |rows|
      ensures Reaches(fs, base, rows[i], target)
    {
      assert NamesPhoto(rows[i], cat.photos);
      var j :| 0 <= j < |cat.photos| && rows[i].photo == cat.photos[j].name;
      assert Resolve(LinkPath(base, rows[i]), target(rows[i].photo)) == AbsRoot(root, cwd) + ["bulk", cat.photos[j].name];
    }
    ProjectIdempotent(fs, base, rows, target);
  }

  /**
   Whatever the link text, a successful link command run again makes
   nothing; it may still exit 1, when a link it made dangles.
   */
  lemma LinkCommandRerunMakesNothing(crit: string, fs: FS, root: RootPath, cwd: Path, cat: Catalog,
                                     target: string -> LinkTarget)
    requires forall i :: 0 <= i < |cat.photos| ==> cat.photos[i].dateTime.Valid()
    requires LinkCommand(crit, true, true, true, fs, root, cwd, cat, target).0 == 0
    ensures var once := LinkCommand(crit, true, true, true, fs, root, cwd, cat, target).1;
      LinkCommand(crit, true, true, true, once, root, cwd, cat, target).1 == once
  {
    ProjectRerunMakesNothing(fs, SortBase(root, cwd, crit), RowsBy(crit, cat), target);
  }

  /** The command as written, with any root path, makes nothing when run again after a success. */
  lemma LinkMainAsWrittenRerunMakesNothing(crit: string, fs: FS, root: RootPath, cwd: Path, cat: Catalog)
    requires forall i :: 0 <= i < |cat.photos| ==> cat.photos[i].dateTime.Valid()
    requires LinkMainAsWritten(crit, true, true, true, fs, root, cwd, cat).0 == 0
    ensures var once := LinkMainAsWritten(crit, true, true, true, fs, root, cwd, cat).1;
      LinkMainAsWritten(crit, true, true, true, once, root, cwd, cat).1 == once
  {
    LinkCommandRerunMakesNothing(crit, fs, root, cwd, cat, p => BulkLinkAsWritten(root, p));
  }

  /** With absolute link text, a successful link command run again exits 0 and makes nothing. */
  lemma LinkMainIdempotent(crit: string, fs: FS, root: RootPath, cwd: Path, cat: Catalog)
    requires forall i :: 0 <= i < |cat.photos| ==> cat.photos[i].dateTime.Valid()
    requires BulkCopies(fs, root, cwd, cat)
    requires LinkMain(crit, true, true, true, fs, root, cwd, cat).0 == 0
    ensures var once := LinkMain(crit, true, true, true, fs, root, cwd, cat).1;
      LinkMain(crit, true, true, true, once, root, cwd, cat) == (0, once)
  {
    BulkLinkLeads(root, cwd);
    LinkCommandIdempotent(crit, fs, root, cwd, cat, p => BulkLink(root, cwd, p));
  }

  /**
   The command as written is idempotent too when the root path is absolute:
   its link text then leads to the bulk copies.
   */
  lemma LinkMainAsWrittenIdempotent(crit: string, fs: FS, root: RootPath, cwd: Path, cat: Catalog)
    requires root.absolute
    requires forall i :: 0 <= i < |cat.photos| ==> cat.photos[i].dateTime.Valid()
    requires BulkCopies(fs, root, cwd, cat)
    requires LinkMainAsWritten(crit, true, true, true, fs, root, cwd, cat).0 == 0
    ensures var once := LinkMainAsWritten(crit, true, true, true, fs, root, cwd, cat).1;
      LinkMainAsWritten(crit, true, true, true, once, root, cwd, cat) == (0, once)
  {
    AsWrittenLeadsOnAbsoluteRoot(root, cwd);
    LinkCommandIdempotent(crit, fs, root, cwd, cat, p => BulkLinkAsWritten(root, p));
  }

  /** A tree with the catalog's directories and one bulk copy `x`, below `/home/db`. */
  function SampleTree(): FS {
    map[[] := Dir, ["home"] := Dir, ["home", "db"] := Dir, ["home", "db", "sort"] := Dir,
        ["home", "db", "bulk"] := Dir, ["home", "db", "bulk", "x"] := File]
  }

  /** A row whose directory and link are both new: one directory and one link are made. */
  lemma LinkRowFresh(fs: FS, base: Path, row: Row, target: string -> LinkTarget)
    requires base in fs && fs[base] == Dir && PlainName(row.dir)
    requires RowDir(base, row) !in fs && LinkPath(base, row) !in fs
    ensures LinkRow(fs, base, row, target)
      == Ok(fs[RowDir(base, row) := Dir][LinkPath(base, row) := Symlink(target(row.photo))])
  {
    var dir := RowDir(base, row);
    assert Parent(dir) == base;
    var fs1 := fs[dir := Dir];
    assert EnsureDir(fs, dir) == Ok(fs1);
    var link := LinkPath(base, row);
    assert Parent(link) == dir && link !in fs1;
    assert !PathExists(fs1, link);
    assert MakeSymlink(fs1, target(row.photo), link) == Ok(fs1[link := Symlink(target(row.photo))]);
  }

  /** A row whose link is there but leads nowhere makes the pass fail. */
  lemma LinkRowOnDangling(fs: FS, base: Path, row: Row, target: string -> LinkTarget)
    requires RowDir(base, row) in fs && fs[RowDir(base, row)] == Dir
    requires LinkPath(base, row) in fs && !PathExists(fs, LinkPath(base, row))
    ensures LinkRow(fs, base, row, target).Err?
  {
    assert EnsureDir(fs, RowDir(base, row)) == Ok(fs);
  }

  /** A link whose target is missing does not exist for `os.path.exists`. */
  lemma DanglingLink(fs: FS, p: Path)
    requires p in fs && fs[p].Symlink? && Resolve(p, fs[p].target) !in fs
    ensures !PathExists(fs, p)
  {
  }

  /** A link straight to a file exists. */
  lemma LinkToFile(fs: FS, p: Path)
    requires p in fs && fs[p].Symlink?
    requires Resolve(p, fs[p].target) in fs && fs[Resolve(p, fs[p].target)] == File
    ensures PathExists(fs, p)
  {
  }

  lemma SampleBulkCopy()
    ensures ["home", "db", "bulk", "x"] in SampleTree() && SampleTree()[["home", "db", "bulk", "x"]] == File
  {
  }

  /** A catalog of one photo named `x` in album `a`. */
  function SampleCatalog(rec: Record): Catalog {
    Catalog([rec], [AlbumLink("a", rec.id)])
  }

  lemma SampleRows(rec: Record)
    requires rec.name == "x" && rec.dateTime.Valid()
    ensures RowsBy("album", SampleCatalog(rec)) == [Row("x", "a")]
  {
    var link := AlbumLink("a", rec.id);
    assert RowsFor([rec][1..], link) == [];
    assert RowsFor([rec], link) == [Row("x", "a")];
    assert AlbumRows([rec], [link][1..]) == [];
    assert AlbumRows([rec], [link]) == [Row("x", "a")];
  }

  /** A projection of one row into a tree that has none of its paths yet. */
  lemma ProjectOneFresh(fs: FS, base: Path, row: Row, target: string -> LinkTarget)
    requires base != [] && Parent(base) in fs && fs[Parent(base)] == Dir && PlainName(row.dir)
    requires base !in fs && RowDir(base, row) !in fs && LinkPath(base, row) !in fs
    ensures Project(fs, base, [row], target)
      == Ok(fs[base := Dir][RowDir(base, row) := Dir][LinkPath(base, row) := Symlink(target(row.photo))])
  {
    var fs1 := fs[base := Dir];
    assert EnsureDir(fs, base) == Ok(fs1);
    assert |RowDir(base, row)| != |base| && |LinkPath(base, row)| != |base|;
    LinkRowFresh(fs1, base, row, target);
    assert LinkRows(fs1, base, [row], target) == LinkRow(fs1, base, row, target);
  }

  /** A projection of one row whose directory exists but whose link leads nowhere fails. */
  lemma ProjectOneDangling(fs: FS, base: Path, row: Row, target: string -> LinkTarget)
    requires base in fs && fs[base] == Dir
    requires RowDir(base, row) in fs && fs[RowDir(base, row)] == Dir
    requires LinkPath(base, row) in fs && !PathExists(fs, LinkPath(base, row))
    ensures Project(fs, base, [row], target).Err?
  {
    assert EnsureDir(fs, base) == Ok(fs);
    LinkRowOnDangling(fs, base, row, target);
  }

  /** The sample tree after one run that linked `x` in album `a` with link text `t`. */
  function SampleLinked(t: LinkTarget): FS {
    var base := ["home", "db", "sort", "by_album"];
    SampleTree()[base := Dir][base + ["a"] := Dir][base + ["a", "x"] := Symlink(t)]
  }

  /** The first run on the sample: `sort/by_album`, then `a`, then the link `x`. */
  lemma SampleFirstRun(target: string -> LinkTarget)
    ensures Project(SampleTree(), ["home", "db", "sort", "by_album"], [Row("x", "a")], target)
      == Ok(SampleLinked(target("x")))
  {
    var base := ["home", "db", "sort", "by_album"];
    var fs := SampleTree();
    assert Parent(base) == ["home", "db", "sort"];
    assert LinkPath(base, Row("x", "a")) == base + ["a", "x"];
    assert base[2] != ["home", "db", "bulk", "x"][2];
    assert forall q :: q in fs ==> |q| <= 4;
    ProjectOneFresh(fs, base, Row("x", "a"), target);
  }

  /** The written link text, `db/bulk/x`, read from `/home/db/sort/by_album/a`, leads nowhere. */
  lemma SampleRelativeDangles()
    ensures !PathExists(SampleLinked(Relative(["db", "bulk", "x"])), ["home", "db", "sort", "by_album", "a", "x"])
  {
    var fs := SampleLinked(Relative(["db", "bulk", "x"]));
    var link := ["home", "db", "sort", "by_album", "a", "x"];
    assert link == ["home", "db", "sort", "by_album"] + ["a", "x"];
    assert Resolve(link, fs[link].target) == ["home", "db", "sort", "by_album", "a", "db", "bulk", "x"];
    assert forall q :: q in fs ==> |q| <= 6;
    DanglingLink(fs, link);
  }

  /** The absolute link text leads to the bulk copy. */
  lemma SampleAbsoluteReaches()
    ensures PathExists(SampleLinked(Absolute(["home", "db", "bulk", "x"])), ["home", "db", "sort", "by_album", "a", "x"])
  {
    var fs := SampleLinked(Absolute(["home", "db", "bulk", "x"]));
    var link := ["home", "db", "sort", "by_album", "a", "x"];
    assert link == ["home", "db", "sort", "by_album"] + ["a", "x"];
    assert ["home", "db", "bulk", "x"][2] != ["home", "db", "sort", "by_album"][2];
    LinkToFile(fs, link);
  }

  /** As written, the first run on the sample exits 0. */
  lemma RelativeFirstRun(rec: Record)
    requires rec.name == "x" && rec.dateTime.Valid()
    ensures LinkMainAsWritten("album", true, true, true, SampleTree(), RootPath(false, ["db"]), ["home"], SampleCatalog(rec))
      == (0, SampleLinked(Relative(["db", "bulk", "x"])))
  {
    var root := RootPath(false, ["db"]);
    var target := p => BulkLinkAsWritten(root, p);
    assert SortBase(root, ["home"], "album") == ["home", "db", "sort", "by_album"];
    assert target("x") == Relative(["db", "bulk", "x"]);
    SampleRows(rec);
    SampleFirstRun(target);
  }

  /** As written, a second run over the dangling link exits 1. */
  lemma RelativeSecondRun(rec: Record)
    requires rec.name == "x" && rec.dateTime.Valid()
    ensures LinkMainAsWritten("album", true, true, true, SampleLinked(Relative(["db", "bulk", "x"])),
                              RootPath(false, ["db"]), ["home"], SampleCatalog(rec)).0 == 1
  {
    var root := RootPath(false, ["db"]);
    var target := p => BulkLinkAsWritten(root, p);
    var base := ["home", "db", "sort", "by_album"];
    assert SortBase(root, ["home"], "album") == base;
    assert RowDir(base, Row("x", "a")) == base + ["a"];
    SampleRows(rec);
    SampleRelativeDangles();
    var fs := SampleLinked(Relative(["db", "bulk", "x"]));
    assert LinkPath(base, Row("x", "a")) == ["home", "db", "sort", "by_album", "a", "x"];
    assert base + ["a"] != LinkPath(base, Row("x", "a"));
    assert (base + ["a"]) + ["x"] == base + ["a", "x"];
    ProjectOneDangling(fs, base, Row("x", "a"), target);
  }

  /**
   With the root given relative (`db`, from `/home`) the link text is
   `db/bulk/x`, read from inside `sort/by_album/a`: the first run exits 0
   but leaves a link that leads nowhere; the second run finds no existing
   path there, tries to make the link again and fails with exit status 1.
   */
  lemma RelativeRootBreaksRerun(rec: Record)
    requires rec.name == "x" && rec.dateTime.Valid()
    ensures var root := RootPath(false, ["db"]);
      var once := LinkMainAsWritten("album", true, true, true, SampleTree(), root, ["home"], SampleCatalog(rec));
      && once.0 == 0
      && !PathExists(once.1, ["home", "db", "sort", "by_album", "a", "x"])
      && LinkMainAsWritten("album", true, true, true, once.1, root, ["home"], SampleCatalog(rec)).0 == 1
  {
    RelativeFirstRun(rec);
    SampleRelativeDangles();
    RelativeSecondRun(rec);
  }

  /** As corrected, the first run on the sample exits 0 with a link that leads to the copy. */
  lemma FixedFirstRun(rec: Record)
    requires rec.name == "x" && rec.dateTime.Valid()
    ensures LinkMain("album", true, true, true, SampleTree(), RootPath(false, ["db"]), ["home"], SampleCatalog(rec))
      == (0, SampleLinked(Absolute(["home", "db", "bulk", "x"])))
  {
    var root := RootPath(false, ["db"]);
    var target := p => BulkLink(root, ["home"], p);
    assert SortBase(root, ["home"], "album") == ["home", "db", "sort", "by_album"];
    assert target("x") == Absolute(["home", "db", "bulk", "x"]);
    SampleRows(rec);
    SampleFirstRun(target);
  }

  /** The sample tree holds the bulk copy of the sample catalog's photo. */
  lemma SampleCopiesInPlace(rec: Record)
    requires rec.name == "x"
    ensures BulkCopies(SampleTree(), RootPath(false, ["db"]), ["home"], SampleCatalog(rec))
  {
    var cat := SampleCatalog(rec);
    forall j | 0 <= j < |cat.photos|
      ensures AbsRoot(RootPath(false, ["db"]), ["home"]) + ["bulk", cat.photos[j].name] == ["home", "db", "bulk", "x"]
    {
      assert cat.photos[j] == rec;
    }
    SampleBulkCopy();
  }

  /** On the same tree and catalog the absolute link text leads to the copy and a rerun is clean. */
  lemma RelativeRootFixed(rec: Record)
    requires rec.name == "x" && rec.dateTime.Valid()
    ensures var root := RootPath(false, ["db"]);
      var once := LinkMain("album", true, true, true, SampleTree(), root, ["home"], SampleCatalog(rec));
      && once.0 == 0
      && PathExists(once.1, ["home", "db", "sort", "by_album", "a", "x"])
      && LinkMain("album", true, true, true, once.1, root, ["home"], SampleCatalog(rec)) == once
  {
    FixedFirstRun(rec);
    SampleAbsoluteReaches();
    SampleCopiesInPlace(rec);
    LinkMainIdempotent("album", SampleTree(), RootPath(false, ["db"]), ["home"], SampleCatalog(rec));
  }

  /** Link `i` of the Albums table refers to photo `j` of the Photos table. */
  predicate Joined(cat: Catalog, i: int, j: int) {
    0 <= i < |cat.albums| && 0 <= j < |cat.photos| && cat.photos[j].id == cat.albums[i].photoId
  }

  /** Every joined pair of the catalog is a row of the album query. */
  lemma JoinedIsRow(cat: Catalog, i: int, j: int)
    requires Joined(cat, i, j)
    ensures Row(cat.photos[j].name, cat.albums[i].album) in AlbumRows(cat.photos, cat.albums)
  {
  }

  /**
   After a successful `--by album` run, whatever the link text, photo P
   linked into album A has the directory `sort/by_album/A` and an entry at
   `sort/by_album/A/P` (with `A` read as `os.path.join` reads it).
   */
  lemma AlbumLinksPlaced(fs: FS, root: RootPath, cwd: Path, cat: Catalog, target: string -> LinkTarget)
    requires forall i :: 0 <= i < |cat.photos| ==> cat.photos[i].dateTime.Valid()
    requires LinkCommand("album", true, true, true, fs, root, cwd, cat, target).0 == 0
    ensures var fs2 := LinkCommand("album", true, true, true, fs, root, cwd, cat, target).1;
      var base := AbsRoot(root, cwd) + ["sort", "by_album"];
      forall i, j :: Joined(cat, i, j) ==>
        PathExists(fs2, Child(base, cat.albums[i].album))
        && Child(base, cat.albums[i].album) + [cat.photos[j].name] in fs2
  {
    var base := AbsRoot(root, cwd) + ["sort", "by_album"];
    assert SortBase(root, cwd, "album") == base;
    var rows := AlbumRows(cat.photos, cat.albums);
    ProjectPlace(fs, base, rows, target);
    var fs2 := Project(fs, base, rows, target).value;
    forall i, j | Joined(cat, i, j)
      ensures PathExists(fs2, Child(base, cat.albums[i].album))
              && Child(base, cat.albums[i].album) + [cat.photos[j].name] in fs2
    {
      var row := Row(cat.photos[j].name, cat.albums[i].album);
      JoinedIsRow(cat, i, j);
      var k :| 0 <= k < |rows| && rows[k] == row;
      assert RowDir(base, rows[k]) == Child(base, cat.albums[i].album);
    }
  }

  /**
   Entry `q` belongs to link `i` and photo `j` of the join: it is the
   album's directory, or the photo's link in it holding the photo's link text.
   */
  predicate AlbumEntry(fs: FS, q: Path, base: Path, cat: Catalog, i: int, j: int, target: string -> LinkTarget) {
    && Joined(cat, i, j)
    && (q == Child(base, cat.albums[i].album)
        || (q == Child(base, cat.albums[i].album) + [cat.photos[j].name] && q in fs
            && fs[q] == Symlink(target(cat.photos[j].name))))
  }

  lemma MadeForAlbumRow(fs: FS, q: Path, base: Path, cat: Catalog, row: Row, target: string -> LinkTarget)
    requires row in AlbumRows(cat.photos, cat.albums)
    requires MadeFor(fs, q, base, row, target)
    ensures exists i, j :: AlbumEntry(fs, q, base, cat, i, j, target)
  {
    var i, j :| 0 <= i < |cat.albums| && 0 <= j < |cat.photos| && cat.photos[j].id == cat.albums[i].photoId
                && row == Row(cat.photos[j].name, cat.albums[i].album);
    assert RowDir(base, row) == Child(base, cat.albums[i].album);
    assert AlbumEntry(fs, q, base, cat, i, j, target);
  }

  /**
   Every entry a successful `--by album` run added, besides `sort/by_album`
   itself, is the directory `sort/by_album/A` of some link (A, P), or the
   link `sort/by_album/A/P` holding the link text for P.
   */
  lemma AlbumEntriesMade(fs: FS, root: RootPath, cwd: Path, cat: Catalog, target: string -> LinkTarget)
    requires forall i :: 0 <= i < |cat.photos| ==> cat.photos[i].dateTime.Valid()
    requires LinkCommand("album", true, true, true, fs, root, cwd, cat, target).0 == 0
    ensures var fs2 := LinkCommand("album", true, true, true, fs, root, cwd, cat, target).1;
      var base := AbsRoot(root, cwd) + ["sort", "by_album"];
      forall q :: q in fs2 && q !in fs && q != base ==> exists i, j :: AlbumEntry(fs2, q, base, cat, i, j, target)
  {
    var base := AbsRoot(root, cwd) + ["sort", "by_album"];
    assert SortBase(root, cwd, "album") == base;
    var rows := AlbumRows(cat.photos, cat.albums);
    ProjectPlace(fs, base, rows, target);
    var fs2 := Project(fs, base, rows, target).value;
    forall q | q in fs2 && q !in fs && q != base
      ensures exists i, j :: AlbumEntry(fs2, q, base, cat, i, j, target)
    {
      var k :| 0 <= k < |rows| && MadeFor(fs2, q, base, rows[k], target);
      MadeForAlbumRow(fs2, q, base, cat, rows[k], target);
    }
  }

  /** The corrected command's new links hold the absolute path of `bulk/P`. */
  lemma LinkMainEntriesMade(fs: FS, root: RootPath, cwd: Path, cat: Catalog)
    requires forall i :: 0 <= i < |cat.photos| ==> cat.photos[i].dateTime.Valid()
    requires LinkMain("album", true, true, true, fs, root, cwd, cat).0 == 0
    ensures var fs2 := LinkMain("album", true, true, true, fs, root, cwd, cat).1;
      var base := AbsRoot(root, cwd) + ["sort", "by_album"];
      var t := p => BulkLink(root, cwd, p);
      forall q :: q in fs2 && q !in fs && q != base ==> exists i, j :: AlbumEntry(fs2, q, base, cat, i, j, t)
  {
    AlbumEntriesMade(fs, root, cwd, cat, p => BulkLink(root, cwd, p));
  }

  /** The command as written: its new links hold `os.path.join(rootPath, 'bulk', P)`. */
  lemma AsWrittenEntriesMade(fs: FS, root: RootPath, cwd: Path, cat: Catalog)
    requires forall i :: 0 <= i < |cat.photos| ==> cat.photos[i].dateTime.Valid()
    requires LinkMainAsWritten("album", true, true, true, fs, root, cwd, cat).0 == 0
    ensures var fs2 := LinkMainAsWritten("album", true, true, true, fs, root, cwd, cat).1;
      var base := AbsRoot(root, cwd) + ["sort", "by_album"];
      var t := p => BulkLinkAsWritten(root, p);
      forall q :: q in fs2 && q !in fs && q != base ==> exists i, j :: AlbumEntry(fs2, q, base, cat, i, j, t)
  {
    AlbumEntriesMade(fs, root, cwd, cat, p => BulkLinkAsWritten(root, p));
  }

  /**
   After a successful `--by date` run, whatever the link text, every photo
   has the directory `sort/by_date/YYYY-MM-DD` of its capture date and an
   entry for itself in it.
   */
  lemma DateLinksPlaced(fs: FS, root: RootPath, cwd: Path, cat: Catalog, target: string -> LinkTarget)
    requires forall i :: 0 <= i < |cat.photos| ==> cat.photos[i].dateTime.Valid()
    requires LinkCommand("date", true, true, true, fs, root, cwd, cat, target).0 == 0
    ensures var fs2 := LinkCommand("date", true, true, true, fs, root, cwd, cat, target).1;
      var base := AbsRoot(root, cwd) + ["sort", "by_date"];
      forall j :: 0 <= j < |cat.photos| ==>
        var day := IsoDate(cat.photos[j].dateTime);
        PathExists(fs2, base + [day]) && base + [day, cat.photos[j].name] in fs2
  {
    var base := AbsRoot(root, cwd) + ["sort", "by_date"];
    assert SortBase(root, cwd, "date") == base;
    var rows := DateRows(cat.photos);
    ProjectPlace(fs, base, rows, target);
    var fs2 := Project(fs, base, rows, target).value;
    forall j | 0 <= j < |cat.photos|
      ensures PathExists(fs2, base + [IsoDate(cat.photos[j].dateTime)])
      ensures base + [IsoDate(cat.photos[j].dateTime), cat.photos[j].name] in fs2
    {
      DateRowDir(base, cat.photos, j);
      assert PathExists(fs2, RowDir(base, rows[j])) && LinkPath(base, rows[j]) in fs2;
    }
  }

  /** The date row of photo `j` sits in the one component `YYYY-MM-DD` below `base`. */
  lemma DateRowDir(base: Path, photos: seq<Record>, j: int)
    requires forall i :: 0 <= i < |photos| ==> photos[i].dateTime.Valid()
    requires 0 <= j < |photos|
    ensures RowDir(base, DateRows(photos)[j]) == base + [IsoDate(photos[j].dateTime)]
    ensures LinkPath(base, DateRows(photos)[j]) == base + [IsoDate(photos[j].dateTime), photos[j].name]
  {
    var day := IsoDate(photos[j].dateTime);
    IsoDateShape(photos[j].dateTime);
    assert PlainName(day);
  }
}

=== FILE: metadata.dfy ===
/**
 The EXIF metadata getters of a photo. Each getter reads one tag and falls
 back to its default ('' for text, 0 for sizes, 0.0 for GPS values) when
 there is no tag set, the tag is missing, or reading the tag fails.
 */
module Metadata {
  import opened Wrappers
  import opened DateTimes

  /** A rational EXIF value `num/den`. */
  datatype Ratio = Ratio(num: int, den: int)

  datatype TagValue = IntValue(i: int) | RatioValue(r: Ratio)

  /**
   One decoded tag: its printable text (`None` when producing it fails)
   and its list of values.
   */
  datatype Tag = Tag(printable: Option<string>, values: seq<TagValue>)

  /** What the EXIF decoder returns: no tag set at all, or tags by name. */
  type Tags = Option<map<string, Tag>>

  const DateTimeKey := "Image DateTime"
  const MakeKey := "Image Make"
  const ModelKey := "Image Model"
  const SoftwareKey := "Image Software"
  const OrientationKey := "Image Orientation"
  const WidthKey := "EXIF ExifImageWidth"
  const HeightKey := "EXIF ExifImageLength"
  const LatitudeKey := "GPS GPSLatitude"
  const LongitudeKey := "GPS GPSLongitude"
  const AltitudeKey := "GPS GPSAltitude"

  /**
   The tag under `key`, when there is a tag set holding it. An empty tag set
   counts as absent, as an empty dict is false in the source's `if (tags)`.
   */
  function Lookup(tags: Tags, key: string): (r: Option<Tag>)
    ensures r.Some? <==> tags.Some? && key in tags.value
    ensures r.Some? ==> r.value == tags.value[key]
  {
    if tags.Some? && |tags.value| > 0 && key in tags.value then Some(tags.value[key]) else None
  }

  /**
   A GPS quantity as the source computes it in floating point: the default
   0.0, degrees + minutes/60 + seconds/3600, or a single rational. The float
   value itself is not modelled; the operands it is computed from are.
   */
  datatype Measure = Zero | Sexagesimal(deg: Ratio, min: Ratio, sec: Ratio) | Quotient(q: Ratio)

  /** The printable text of a tag, or '' (make, model, software, orientation). */
  function TextTag(tags: Tags, key: string): (r: string)
    ensures Lookup(tags, key).None? ==> r == ""
    ensures Lookup(tags, key).Some? && Lookup(tags, key).value.printable.None? ==> r == ""
    ensures Lookup(tags, key).Some? && Lookup(tags, key).value.printable.Some?
            ==> r == Lookup(tags, key).value.printable.value
  {
    match Lookup(tags, key)
    case None => ""
    case Some(tag) => tag.printable.GetOr("")
  }

  /** `values[0]` of a tag holding an integer, or 0 (width and height). */
  function IntTag(tags: Tags, key: string): (r: int)
    ensures r != 0 ==> Lookup(tags, key).Some? && |Lookup(tags, key).value.values| > 0
                       && Lookup(tags, key).value.values[0] == IntValue(r)
    ensures (Lookup(tags, key).Some? && |Lookup(tags, key).value.values| > 0
             && Lookup(tags, key).value.values[0].IntValue?)
            ==> r == Lookup(tags, key).value.values[0].i
  {
    match Lookup(tags, key)
    case None => 0
    case Some(tag) =>
      if |tag.values| > 0 && tag.values[0].IntValue? then tag.values[0].i else 0
  }

  /** The `i`-th value of a tag when it is a rational with a non-zero denominator. */
  function RatioAt(tag: Tag, i: nat): (r: Option<Ratio>)
    ensures r.Some? ==> i < |tag.values| && tag.values[i] == RatioValue(r.value) && r.value.den != 0
  {
    if i < |tag.values| && tag.values[i].RatioValue? && tag.values[i].r.den != 0
    then Some(tag.values[i].r) else None
  }

  /**
   Latitude or longitude: three rationals degrees, minutes, seconds; any
   missing value, non-rational value or zero denominator raises in the
   source and leaves the default.
   */
  function AngleTag(tags: Tags, key: string): (r: Measure)
    ensures r.Zero? || r.Sexagesimal?
    ensures r.Sexagesimal? <==>
              Lookup(tags, key).Some?
              && RatioAt(Lookup(tags, key).value, 0).Some?
              && RatioAt(Lookup(tags, key).value, 1).Some?
              && RatioAt(Lookup(tags, key).value, 2).Some?
    ensures r.Sexagesimal? ==>
              var tag := Lookup(tags, key).value;
              r == Sexagesimal(RatioAt(tag, 0).value, RatioAt(tag, 1).value, RatioAt(tag, 2).value)
  {
    match Lookup(tags, key)
    case None => Zero
    case Some(tag) =>
      match (RatioAt(tag, 0), RatioAt(tag, 1), RatioAt(tag, 2))
      case (Some(d), Some(m), Some(s)) => Sexagesimal(d, m, s)
      case _ => Zero
  }

  /** Altitude: one rational with a non-zero denominator, or the default. */
  function AltitudeTag(tags: Tags): (r: Measure)
    ensures r.Zero? || r.Quotient?
    ensures r.Quotient? <==> Lookup(tags, AltitudeKey).Some? && RatioAt(Lookup(tags, AltitudeKey).value, 0).Some?
    ensures r.Quotient? ==> r == Quotient(RatioAt(Lookup(tags, AltitudeKey).value, 0).value)
  {
    match Lookup(tags, AltitudeKey)
    case None => Zero
    case Some(tag) =>
      match RatioAt(tag, 0)
      case Some(q) => Quotient(q)
      case None => Zero
  }

  /** The embedded capture time, when the tag is there and parses. */
  function TagTime(tags: Tags): (r: Option<DateTime>)
    ensures r.Some? ==> r.value.Valid()
  {
    match Lookup(tags, DateTimeKey)
    case None => None
    case Some(tag) =>
      match tag.printable
      case None => None
      case Some(text) => ParseExif(text)
  }

  /**
   The capture time of a photo: the embedded `Image DateTime` when it parses
   and is earlier than the file's modification time, otherwise that
   modification time. So it is the earlier of the two.
   */
  function CaptureTime(mtime: DateTime, tags: Tags): (r: DateTime)
    ensures mtime.Valid() ==> r.Valid()
    ensures NotAfter(r, mtime)
    ensures r == mtime || TagTime(tags) == Some(r)
    ensures TagTime(tags).Some? ==> NotAfter(r, TagTime(tags).value)
  {
    match TagTime(tags)
    case Some(t) => if Before(t, mtime) then t else mtime
    case None => mtime
  }

  /** Without a tag set, or with an empty one, every getter yields its default. */
  lemma MissingTagsGiveDefaults(tags: Tags, mtime: DateTime, key: string)
    requires tags.None? || tags.value == map[]
    ensures TextTag(tags, key) == "" && IntTag(tags, key) == 0
    ensures AngleTag(tags, key) == Zero && AltitudeTag(tags) == Zero
    ensures CaptureTime(mtime, tags) == mtime
  {
  }
}

=== FILE: naming.dfy ===
/**
 File names: the extension filter applied to candidate files, and the
 canonical archive name `YYYY-MM-DD-<id><ext>` given to each new photo,
 together with the reading that recovers date, identity and extension
 from such a name.
 */
module Naming {
  import opened Wrappers
  import opened Digits
  import opened DateTimes

  /** `str.lower` on one character, for the ASCII letters. */
  function LowerChar(c: char): char {
    if 'A' <= c <= 'Z' then (c as int - 'A' as int + 'a' as int) as char else c
  }

  function Lower(s: string): string {
    if s == [] then [] else [LowerChar(s[0])] + Lower(s[1..])
  }

  /** Lower-casing works character by character. */
  lemma {:induction false} LowerPointwise(s: string)
    ensures |Lower(s)| == |s|
    ensures forall i :: 0 <= i < |s| ==> Lower(s)[i] == LowerChar(s[i])
  {
    if s != [] {
      LowerPointwise(s[1..]);
    }
  }

  /** `str.rfind`: the last index of `c` in `s`, or -1. */
  function RFind(s: string, c: char): int {
    if s == [] then -1
    else if s[|s| - 1] == c then |s| - 1
    else RFind(s[..|s| - 1], c)
  }

  /** `RFind` names the last occurrence, and -1 only when there is none. */
  lemma {:induction false} RFindLast(s: string, c: char)
    ensures -1 <= RFind(s, c) < |s|
    ensures RFind(s, c) >= 0 ==> s[RFind(s, c)] == c
    ensures forall i :: RFind(s, c) < i < |s| ==> s[i] != c
  {
    if s != [] && s[|s| - 1] != c {
      RFindLast(s[..|s| - 1], c);
    }
  }

  /** Some character of `p[lo..hi]` is not a '.'. */
  predicate HasNonDot(p: string, lo: int, hi: int)
    requires 0 <= lo && hi <= |p|
    decreases hi - lo
  {
    lo < hi && (p[lo] != '.' || HasNonDot(p, lo + 1, hi))
  }

  lemma {:induction false} HasNonDotWitness(p: string, lo: int, hi: int)
    requires 0 <= lo && hi <= |p|
    ensures HasNonDot(p, lo, hi) <==> exists k :: lo <= k < hi && p[k] != '.'
    decreases hi - lo
  {
    if lo < hi {
      HasNonDotWitness(p, lo + 1, hi);
    }
  }

  /**
   `os.path.splitext` on POSIX: the extension runs from the last '.' of the
   last path component, provided something other than dots precedes that
   '.' in the component (so ".jpg" and "..jpg" have no extension).
   */
  function SplitExt(p: string): (string, string) {
    var sepIndex := RFind(p, '/');
    var dotIndex := RFind(p, '.');
    RFindLast(p, '/');
    RFindLast(p, '.');
    if dotIndex > sepIndex && HasNonDot(p, sepIndex + 1, dotIndex) then
      (p[..dotIndex], p[dotIndex..])
    else
      (p, [])
  }

  /**
   The two parts make up the path; the extension is empty or a '.' with no
   further '.' or '/'; it is non-empty exactly when the last component has
   a '.' preceded by something other than dots.
   */
  lemma SplitExtParts(p: string)
    ensures SplitExt(p).0 + SplitExt(p).1 == p
    ensures var ext := SplitExt(p).1;
      ext == [] || (ext[0] == '.' && forall i :: 0 < i < |ext| ==> ext[i] != '.' && ext[i] != '/')
    ensures SplitExt(p).1 != [] <==>
      RFind(p, '.') > RFind(p, '/') && exists k :: RFind(p, '/') < k < RFind(p, '.') && 0 <= k < |p| && p[k] != '.'
  {
    var sepIndex, dotIndex := RFind(p, '/'), RFind(p, '.');
    RFindLast(p, '/');
    RFindLast(p, '.');
    if dotIndex > sepIndex {
      HasNonDotWitness(p, sepIndex + 1, dotIndex);
    }
    if dotIndex > sepIndex && HasNonDot(p, sepIndex + 1, dotIndex) {
      var ext := p[dotIndex..];
      forall i | 0 < i < |ext|
        ensures ext[i] != '.' && ext[i] != '/'
      {
        assert ext[i] == p[dotIndex + i];
      }
    }
  }

  /**
   A plain file name `stem + ext`, with no '/' anywhere, no '.' in the stem
   and exactly one '.' starting `ext`, splits into exactly those two parts.
   */
  lemma SplitExtPlainName(stem: string, ext: string)
    requires stem != [] && forall i :: 0 <= i < |stem| ==> stem[i] != '.' && stem[i] != '/'
    requires ext != [] && ext[0] == '.'
    requires forall i :: 0 < i < |ext| ==> ext[i] != '.' && ext[i] != '/'
    ensures SplitExt(stem + ext) == (stem, ext)
  {
    var p := stem + ext;
    RFindLast(p, '/');
    RFindLast(p, '.');
    assert p[|stem|] == '.';
    assert forall i :: 0 <= i < |p| ==> p[i] != '/' by {
      forall i | 0 <= i < |p|
        ensures p[i] != '/'
      {
        if i >= |stem| {
          assert p[i] == ext[i - |stem|];
        }
      }
    }
    assert forall i :: |stem| < i < |p| ==> p[i] == ext[i - |stem|];
    assert RFind(p, '.') == |stem|;
    assert RFind(p, '/') == -1;
    HasNonDotWitness(p, 0, |stem|);
    assert p[0] == stem[0];
    assert p[..|stem|] == stem && p[|stem|..] == ext;
  }

  /** The extension the importer sees: that of the lower-cased file name. */
  function Extension(name: string): string {
    SplitExt(Lower(name)).1
  }

  /** An extension is empty or starts with '.', so it never continues a hex number. */
  lemma ExtensionStart(name: string)
    ensures Extension(name) == [] || Extension(name)[0] == '.'
    ensures Extension(name) == [] || !IsDigit(Extension(name)[0], 16)
  {
    SplitExtParts(Lower(name));
  }

  const ImportFilter: seq<string> := [".jpg", ".jpeg", ".gif", ".png", ".bmp", ".tiff"]

  /** `x in xs`, one entry at a time, as a tuple membership test scans. */
  predicate Listed(x: string, xs: seq<string>) {
    xs != [] && (xs[0] == x || Listed(x, xs[1..]))
  }

  lemma {:induction false} ListedIsMembership(x: string, xs: seq<string>)
    ensures Listed(x, xs) <==> x in xs
  {
    if xs != [] {
      ListedIsMembership(x, xs[1..]);
      assert xs == [xs[0]] + xs[1..];
    }
  }

  /** Only files with one of the six picture extensions are imported. */
  predicate IsImportable(name: string) {
    Listed(Extension(name), ImportFilter)
  }

  /** The filter passes exactly the names whose lower-cased extension is one of the six. */
  lemma ImportableIff(name: string)
    ensures IsImportable(name) <==> Extension(name) in ImportFilter
  {
    ListedIsMembership(Extension(name), ImportFilter);
  }

  /** An imported file's extension is '.' and three or four letters. */
  lemma ImportableExtension(name: string)
    requires IsImportable(name)
    ensures 4 <= |Extension(name)| <= 5 && Extension(name)[0] == '.'
    ensures !IsDigit(Extension(name)[0], 16)
  {
    ImportableIff(name);
    ExtensionStart(name);
  }

  /**
   The archive name of a new photo: `'{0}-{1:0>2d}-{2:0>2d}-{3:0>6X}{4}'`
   over year, month, day, identity and extension.
   */
  function CanonicalName(dt: DateTime, id: nat, ext: string): string
    requires dt.Valid()
  {
    Join3(FromNat(dt.year, 10), Field(dt.month, 2), Field(dt.day, 2), '-')
      + (['-'] + (PadLeft(FromNat(id, 16), 6) + ext))
  }

  datatype NameParts = NameParts(year: nat, month: nat, day: nat, id: nat, ext: string)

  /**
   Reads a canonical name back: decimal year, '-', two-digit month, '-',
   two-digit day, '-', at least six uppercase hex digits, then the extension.
   */
  function ParseName(s: string): Option<NameParts> {
    var y := Span(s, 10);
    if y == 0 then None
    else
      var (year, month, day, r1) :- Triple(s, y, '-');
      var r2 :- Expect(r1, '-');
      var h := Span(r2, 16);
      if h < 6 then None
      else Some(NameParts(year, month, day, ToNat(r2[..h], 16), r2[h..]))
  }

  /** Reading `y-mo-d-h<ext>` part by part gives the numbers and the extension back. */
  lemma ParseNameLayout(y: string, mo: string, d: string, h: string, ext: string)
    requires 1 <= |y| && AllDigits(y, 10)
    requires |mo| == 2 && |d| == 2 && AllDigits(mo, 10) && AllDigits(d, 10)
    requires 6 <= |h| && AllDigits(h, 16)
    requires ext == [] || !IsDigit(ext[0], 16)
    ensures ParseName(Join3(y, mo, d, '-') + (['-'] + (h + ext)))
      == Some(NameParts(ToNat(y, 10), ToNat(mo, 10), ToNat(d, 10), ToNat(h, 16), ext))
  {
    var rest := ['-'] + (h + ext);
    var s := Join3(y, mo, d, '-') + rest;
    TripleOf(y, mo, d, '-', rest);
    assert !IsDigit('-', 10);
    SpanOfConcat(y, s[|y|..], 10);
    ExpectOf('-', h + ext);
    SpanOfConcat(h, ext, 16);
    assert (h + ext)[..|h|] == h && (h + ext)[|h|..] == ext;
  }

  /** `ParseNameLayout` with the fields' values named. */
  lemma ParseNameFields(y: string, mo: string, d: string, h: string, ext: string, dt: DateTime, id: nat)
    requires 1 <= |y| && AllDigits(y, 10) && ToNat(y, 10) == dt.year
    requires |mo| == 2 && AllDigits(mo, 10) && ToNat(mo, 10) == dt.month
    requires |d| == 2 && AllDigits(d, 10) && ToNat(d, 10) == dt.day
    requires 6 <= |h| && AllDigits(h, 16) && ToNat(h, 16) == id
    requires ext == [] || !IsDigit(ext[0], 16)
    ensures ParseName(Join3(y, mo, d, '-') + (['-'] + (h + ext))) == Some(NameParts(dt.year, dt.month, dt.day, id, ext))
  {
    ParseNameLayout(y, mo, d, h, ext);
  }

  /** A canonical name determines the date, identity and extension it was made from. */
  lemma ParseCanonicalName(dt: DateTime, id: nat, ext: string)
    requires dt.Valid()
    requires ext == [] || !IsDigit(ext[0], 16)
    ensures ParseName(CanonicalName(dt, id, ext)) == Some(NameParts(dt.year, dt.month, dt.day, id, ext))
  {
    Pow10Values();
    FieldExact(dt.month, 2);
    FieldExact(dt.day, 2);
    ToNatFromNat(dt.year, 10);
    ToNatPadded(id, 6, 16);
    ParseNameFields(FromNat(dt.year, 10), Field(dt.month, 2), Field(dt.day, 2),
                    PadLeft(FromNat(id, 16), 6), ext, dt, id);
  }

  /**
   Distinct identities never share an archive name, whatever the dates and
   extensions; equal names come from equal identities, dates and extensions.
   */
  lemma CanonicalNameInjective(dt1: DateTime, id1: nat, ext1: string,
                               dt2: DateTime, id2: nat, ext2: string)
    requires dt1.Valid() && dt2.Valid()
    requires ext1 == [] || !IsDigit(ext1[0], 16)
    requires ext2 == [] || !IsDigit(ext2[0], 16)
    requires CanonicalName(dt1, id1, ext1) == CanonicalName(dt2, id2, ext2)
    ensures id1 == id2 && ext1 == ext2
    ensures dt1.year == dt2.year && dt1.month == dt2.month && dt1.day == dt2.day
  {
    ParseCanonicalName(dt1, id1, ext1);
    ParseCanonicalName(dt2, id2, ext2);
  }
}

=== FILE: scenarios.dfy ===
/**
 Worked runs of the importer on small concrete inputs.
 */
module Scenarios {
  import opened Wrappers
  import opened Digits
  import opened DateTimes
  import opened Metadata
  import opened Naming
  import opened Database
  import opened Ingest

  /** The digest function of these runs: two distinct contents, two distinct digests. */
  function Md5(content: seq<byte>): Digest {
    if content == [1] then "c4ca" else "c81e"
  }

  const Taken := DateTime(2020, 1, 1, 10, 0, 0, 0)
  const Copied := DateTime(2021, 6, 1, 12, 0, 0, 0)
  const Empty := State(Catalog([], []), map[])

  /** A camera file whose `Image DateTime` tag holds `Taken` in EXIF form. */
  function Shot(): Candidate {
    Candidate("P.JPG", true, [1], Copied, Some(map[DateTimeKey := Tag(Some(FormatExif(Taken)), [])]))
  }

  const Note := Candidate("N.TXT", true, [2], Copied, None)

  lemma PictureExtension()
    ensures Extension("P.JPG") == ".jpg" && IsImportable("P.JPG")
  {
    assert Lower("P.JPG") == "p" + ".jpg";
    SplitExtPlainName("p", ".jpg");
  }

  lemma TextExtension()
    ensures Extension("N.TXT") == ".txt" && !IsImportable("N.TXT")
  {
    assert Lower("N.TXT") == "n" + ".txt";
    SplitExtPlainName("n", ".txt");
    TextNotListed();
  }

  lemma TextNotListed()
    ensures !Listed(".txt", ImportFilter)
  {
    var xs := ImportFilter;
    assert ".txt"[1] != ".jpg"[1] && ".txt"[1] != ".jpeg"[1] && ".txt"[1] != ".gif"[1];
    assert ".txt"[1] != ".png"[1] && ".txt"[1] != ".bmp"[1] && ".txt"[2] != ".tiff"[2];
    assert !Listed(".txt", xs[5..]);
    assert !Listed(".txt", xs[4..]);
    assert !Listed(".txt", xs[3..]);
    assert !Listed(".txt", xs[2..]);
    assert !Listed(".txt", xs[1..]);
  }

  /** The capture time comes from the tag when the tag is the earlier of the two. */
  lemma ShotCaptureTime()
    ensures CaptureTime(Copied, Shot().tags) == Taken
  {
    ParseFormatExif(Taken);
  }

  /** What the first pass stores for the camera file. */
  function FirstRecord(): Record {
    PhotoRecord(Shot(), 1, Md5)
  }

  function AfterShot(): State {
    State(Catalog([FirstRecord()], [AlbumLink("trip", 1)]),
          map[FirstRecord().name := StoredCopy([1], Copied)])
  }

  /** Any record goes into an empty catalog, and then into the album. */
  lemma ArchiveIntoEmpty(rec: Record, album: string, copy: StoredCopy)
    ensures Archive(Empty, album, rec, copy)
      == Ok(State(Catalog([rec], [AlbumLink(album, rec.id)]), map[rec.name := copy]))
  {
    var cat1 := Catalog([rec], []);
    assert [] + [rec] == [rec];
    assert AddToPhotos(Catalog([], []), rec) == Ok(cat1);
    assert FindPhoto([rec], rec.hash, rec.size) == Some(rec.id);
    var link := AlbumLink(album, rec.id);
    assert [] + [link] == [link];
    assert AddToAlbums(cat1, rec.hash, rec.size, album) == Ok(Catalog([rec], [link]));
    assert Empty.bulk[rec.name := copy] == map[rec.name := copy];
  }

  lemma ShotStep()
    ensures Step(Empty, "trip", Shot(), Md5) == Ok(AfterShot())
  {
    PictureExtension();
    ArchiveIntoEmpty(FirstRecord(), "trip", StoredCopy([1], Copied));
  }

  lemma NoteStep(st: State)
    ensures Step(st, "trip", Note, Md5) == Ok(st)
  {
    TextExtension();
  }

  /**
   The first photo imported into an empty catalog gets identity 1, the
   earlier tag time, and a name that reads back as 2020-01-01, identity 1
   and ".jpg"; the text file is skipped and the album holds one link.
   */
  lemma FirstImport()
    ensures Step(Empty, "trip", Shot(), Md5) == Ok(AfterShot())
    ensures Step(AfterShot(), "trip", Note, Md5) == Ok(AfterShot())
    ensures AfterShot().catalog.albums == [AlbumLink("trip", 1)]
    ensures FirstRecord().id == 1 && FirstRecord().dateTime == Taken
    ensures ParseName(FirstRecord().name) == Some(NameParts(2020, 1, 1, 1, ".jpg"))
    ensures FirstRecord().name == "2020-01-01-000001.jpg"
  {
    ShotStep();
    NoteStep(AfterShot());
    ShotCaptureTime();
    PictureExtension();
    ParseCanonicalName(Taken, 1, ".jpg");
    FirstName();
  }

  /** The year, month, day and identity of the first photo, rendered. */
  lemma FirstNameFields()
    ensures FromNat(2020, 10) == "2020"
    ensures Field(1, 2) == "01"
    ensures PadLeft(FromNat(1, 16), 6) == "000001"
  {
    assert FromNat(2, 10) == "2";
    assert FromNat(20, 10) == "20";
    assert FromNat(202, 10) == "202";
    assert Zeros(1) == "0";
    assert Zeros(5) == "00000";
  }

  /** The first photo's archive name, character for character. */
  lemma FirstName()
    ensures FirstRecord().name == "2020-01-01-000001.jpg"
  {
    FirstNameIsCanonical();
    FirstNameFields();
    FirstNameText();
  }

  lemma FirstNameIsCanonical()
    ensures FirstRecord().name == CanonicalName(Taken, 1, ".jpg")
  {
    ShotCaptureTime();
    PictureExtension();
  }

  lemma FirstNameText()
    ensures Join3("2020", "01", "01", '-') + (['-'] + ("000001" + ".jpg")) == "2020-01-01-000001.jpg"
  {
  }
}

=== FILE: wrappers.dfy ===
/** Option and Result values used across the model, both usable with `:-`. */
module Wrappers {

  datatype Option<+T> = None | Some(value: T) {
    predicate IsFailure() { None? }

    function PropagateFailure<U>(): Option<U>
      requires None?
    {
      None
    }

    function Extract(): T
      requires Some?
    {
      value
    }

    /** The wrapped value, or `default` when there is none. */
    function GetOr(default: T): T {
      match this
      case Some(v) => v
      case None => default
    }
  }

  datatype Result<+R, +E> = Ok(value: R) | Err(error: E) {
    predicate IsFailure() { Err? }

    function PropagateFailure<U>(): Result<U, E>
      requires Err?
    {
      Err(error)
    }

    function Extract(): R
      requires Ok?
    {
      value
    }
  }
}
